=== FILE: README.md ===
# Person/Address/Class/Account store — a Dafny model

The service keeps four independent in-memory collections: Address, Person,
Class and Account. Each is a Python dict from UUID to a Read record. Every
collection offers the same four operations:

- **create** stores a record built from a Create payload;
- **get** looks a record up by key;
- **list** filters the stored records by optional exact-match query parameters;
- **patch** merges an Update payload into a stored record.

This project models those operations as pure functions over immutable data
and proves what they guarantee.

- `outcomes.dfy` (`Outcomes`): `Option`, the error kinds (`NotFound`,
  `DuplicateIdentity`, `InvalidRecord`, `MissingIdentity`), `Result`, and
  the `Uuid` and `Timestamp` types.
- `stores.dfy` (`Stores`): one collection, that is, a dict. It is a map
  plus the insertion order of its keys, because `list(d.values())` lists
  records in first-insertion order and re-assigning a key keeps its place.
  This file holds the shared get, assignment and patch steps, with the
  invariants they preserve.
- `filtering.dfy` (`Filtering`): the list comprehension `[x for x in xs if
  p(x)]` (`Filter`). It also holds the "apply one comprehension when the
  parameter is not None" step that every list handler repeats (`Narrow`),
  and Python's `any()` (`Any`), which the person listing applies to the
  embedded addresses.
- `partial.dfy` (`Partial`): field presence in an Update payload. A field
  is unset, set to a value or set to null (`Presence<Option<T>>`). Also
  the field-wise overlay that serves as the reference for a patch.
- `dumps.dfy` (`Dumps`): the dicts that `model_dump()` produces, and the
  validation that `Read(**d)` performs when it rebuilds a record from one.
- `calendar.dfy` (`Calendar`): dates and their `str()` form `YYYY-MM-DD`,
  with a parser as its inverse.
- `addresses.dfy`, `persons.dfy`, `accounts.dfy`, `classes.dfy`: the four
  collections, their shapes and their handlers.

A patch is modelled exactly as the handlers perform it, in three steps:
1. dump the stored record;
2. `dict.update` the dump with `update.model_dump(exclude_unset=True)`,
   which is a right-biased map union;
3. rebuild the Read record.

`Overlay` is the independent field-by-field reference, and `MergeIsOverlay`
proves that the two agree. A field set to null in a required slot makes the
rebuild fail validation. That failure is `Failure(InvalidRecord)`, and the
store stays unchanged. No Update shape has a `created_at` or `updated_at`
field, so a patch keeps both timestamps and the id as stored. The handlers
never re-stamp `updated_at`: the stored dump carries the old value, and
nothing in the update replaces it (main.py:102-104).

Ids and clock readings are parameters. A create takes the generated `id`
and two successive clock readings `t0` (for `created_at`) and `t1` (for
`updated_at`), because the two `default_factory` calls read the clock
separately. The two readings need not be equal. Under a monotone clock
(`t0 <= t1`), every stored record keeps `created_at <= updated_at`.

## Model

| member | source | states |
|---|---|---|
| `Stores.Values` | main.py:77 | the listing has one entry per key in insertion order, entry i is the record stored under the i-th key, and every stored record appears |
| `Stores.Get` | main.py:92-96 | the lookup succeeds iff the key is present and then returns the stored record, otherwise it fails with NotFound |
| `Stores.Put` | main.py:66 | assigning a key stores the record under it; a new key goes last in the order, an existing key keeps its place |
| `Stores.ValuesAfterFreshPut` | main.py:66-67 | storing under a fresh key appends exactly that record to the listing |
| `Stores.ValuesAfterPutExisting` | main.py:104 | re-assigning a present key changes the listing only at that key's position |
| `Stores.Patch` | main.py:98-105 | absent key: NotFound and nothing changes; merge not valid: InvalidRecord and nothing changes; a present key whose merge is valid always succeeds with the merged record, which replaces the stored one in place while every other entry is unchanged |
| `Stores.PatchKeepsInvariants` | main.py:102-104 | a merge that keeps a record's key and an invariant keeps both across the whole store |
| `Filtering.Filter` | main.py:80 | a comprehension keeps only elements that pass the test, keeps every passing value, and preserves the original order (an ordered subsequence) |
| `Filtering.FilterCounts` | main.py:80 | each passing value occurs in the result exactly as many times as in the input, and a failing value not at all, so duplicates are kept |
| `Filtering.FilterFilter` | main.py:79-82 | two successive comprehensions equal one comprehension with the conjunction of their tests |
| `Filtering.FilterCommutes` | main.py:79-88 | the order in which two comprehensions are applied does not change the result |
| `Filtering.FilterAppend` | main.py:77-80 | a comprehension over a concatenation is the concatenation of the comprehensions |
| `Filtering.FilterSnoc` | main.py:66-67 | after one more record is appended to the listing, the comprehension gains that record at its end exactly when it passes |
| `Filtering.Any` | main.py:145-147 | Python's `any(...)` over a list is true iff at least one element passes the test, so it is false for an empty list |
| `Filtering.Narrow` | main.py:79-80 | a parameter that is None keeps every record; a given one keeps the records that match it, each as many times as it occurs, and drops the others |
| `Filtering.NarrowIsFilter` | main.py:79-80 | the optional step is the comprehension with the test "parameter absent or matched" |
| `Filtering.NarrowAfterFilter` | main.py:79-88 | another optional step after a comprehension is one comprehension with the conjoined test |
| `Filtering.NarrowCommutes` | main.py:79-88 | two optional steps commute |
| `Calendar.DateText` | main.py:141 | `str(date)` has ten characters: four-, two- and two-digit groups separated by hyphens at positions 4 and 7 |
| `Calendar.ParseDate` | main.py:124 | a text is accepted only if it is the canonical `YYYY-MM-DD` text of the date it yields |
| `Calendar.DateTextRoundTrip` | main.py:141 | parsing the text of any date gives that date back |
| `Calendar.DateTextInjective` | main.py:141 | two dates have the same text iff they are the same date |
| `Calendar.DateTextMatchesIffParses` | main.py:141 | a date's text equals a query string iff the string parses to that date |
| `Calendar.DigitsRoundTrip` | main.py:141 | a number of at most w digits printed zero-padded to width w reads back as itself |
| `Dumps.Required` | models/account.py:6-21 | a required field that is missing from the payload fails validation |
| `Dumps.Nullable` | models/classes.py:11-15 | an optional field that is missing reads as null |
| `Dumps.UpdateField` | models/account.py:49-65 | an Update field is unset exactly when its key is absent from the payload |
| `Dumps.Dumped` | main.py:103 | `exclude_unset` dumps a field exactly when it was set |
| `Addresses.FieldsValue` | main.py:161-163 | an address embedded in a person dumps to a nested dict that validates back to the same address |
| `Addresses.FieldsDump` | main.py:161-163 | an embedded address dumps one key per address field and no other |
| `Addresses.BuildFields` | main.py:104 | the address fields validate iff each of the five is present as a string, and each validated field is the value the dict holds |
| `Addresses.Dump` | main.py:102 | the dump of a stored address has exactly one key per declared field: the five address fields, the id and both timestamps |
| `Addresses.Build` | main.py:104 | `AddressRead(**d)` succeeds iff the address fields validate and the id and both timestamps are present with their types, so a missing or null field fails; the record takes every field, id and timestamps included, from the dict |
| `Addresses.Merged` | main.py:102-103 | `dict.update` with the update's dump adds no key, and the id and both timestamps keep their stored values |
| `Addresses.DumpUpdate` | main.py:103 | the update dump holds only address field keys, never the id or a timestamp, and is empty iff nothing was set |
| `Addresses.BuildDump` | main.py:102-104 | rebuilding a record from its own dump gives the record back |
| `Addresses.Overlay` | main.py:102-104 | the reference merge keeps id and timestamps, and fails iff some field is set to null |
| `Addresses.BuildMerged` | main.py:102-104 | rebuilding the updated dump validates to exactly the field-wise overlay |
| `Addresses.Merge` | main.py:102-104 | the merge keeps id and timestamps, and fails iff some field is set to null |
| `Addresses.MergeIsOverlay` | main.py:102-104 | the dump/update/rebuild merge equals the field-wise overlay |
| `Addresses.MergeNoChanges` | main.py:102-104 | an update that sets nothing gives the stored record back |
| `Addresses.MergeIdempotent` | main.py:102-104 | applying the same update a second time changes nothing more |
| `Addresses.CreateDump` | main.py:66 | `address.model_dump()` holds the five address fields and the client's id, and no timestamp |
| `Addresses.NewAddress` | main.py:66 | the new record is exactly what `AddressRead(**d)` rebuilds from the payload's dump once the two timestamps are filled in from the clock readings |
| `Addresses.CreateAddress` | main.py:62-67 | an id already stored gives DuplicateIdentity and leaves the store unchanged; otherwise the record carries the payload's id and fields and is appended under that id |
| `Addresses.CreateAddressAppends` | main.py:66-67 | a successful create can be read back by get, and the listing gains exactly that record at its end |
| `Addresses.ListAddresses` | main.py:69-90 | every listed address is stored and matches every given parameter, every stored match is listed, and no parameters lists everything in insertion order |
| `Addresses.Matches` | main.py:79-88 | an address passes the query iff each given parameter equals its field exactly; the empty query admits every address (the per-parameter tests `StreetIs` to `CountryIs` share this row) |
| `Addresses.ListAddressesIsOneFilter` | main.py:77-88 | the five chained comprehensions are one comprehension with the conjunction, so the result is an ordered subsequence of the listing, and every stored record appears in the result as often as in the listing if it matches and not at all otherwise |
| `Addresses.ListAfterCreate` | main.py:66-67 | after a create under a new id, every listing is the earlier listing followed by the new address exactly when it matches the query |
| `Addresses.GetAddress` | main.py:92-96 | the record is returned iff its id is stored, otherwise NotFound |
| `Addresses.PatchAddress` | main.py:98-105 | absent id: NotFound and nothing changes; a present id with a null-free update always succeeds with the field-wise overlay, which replaces the stored record in place; on failure nothing changes |
| `Addresses.PatchNoChanges` | main.py:98-105 | patching with an empty update returns the stored record and leaves the store as it was |
| `Addresses.CreateKeepsConsistent` | main.py:62-67 | under a monotone clock a create keeps every record keyed by its own id with `created_at <= updated_at` |
| `Addresses.PatchKeepsConsistent` | main.py:98-105 | a patch keeps every record keyed by its own id with `created_at <= updated_at` |
| `Persons.AddressesRoundTrip` | main.py:161-163 | the embedded address list survives its dump to a list of nested dicts and its validation back |
| `Persons.DumpUpdate` | main.py:162 | the update dump holds only person field keys, never the id or a timestamp |
| `Persons.DumpNoChanges` | main.py:162 | an update that sets nothing dumps to the empty dict |
| `Persons.CreateDump` | main.py:113 | `person.model_dump()` holds the payload's seven fields and no id or timestamp |
| `Persons.Build` | main.py:163 | `PersonRead(**d)` succeeds iff every field is present with its type, the address list validating as a list of address dicts, so a missing or null field fails; the record takes every field, id and timestamps included, from the dict |
| `Persons.MergedShape` | main.py:161-162 | about `Persons.Dump` and `Persons.Merged`: the dump has exactly one key per declared field, `dict.update` with the update's dump adds none, and the id and both timestamps keep their stored values |
| `Persons.BuildDump` | main.py:161-163 | rebuilding a record from its own dump gives the record back |
| `Persons.Overlay` | main.py:161-163 | the reference merge keeps id and timestamps, and fails iff some field is set to null |
| `Persons.MergedAddresses` | main.py:161-163 | after `dict.update` the address list validates to the stored list, or to the given list, or fails on null |
| `Persons.BuildMerged` | main.py:161-163 | rebuilding the updated dump validates to exactly the field-wise overlay |
| `Persons.Merge` | main.py:161-163 | the merge keeps id and timestamps, and fails iff some field is set to null |
| `Persons.MergeIsOverlay` | main.py:161-163 | the dump/update/rebuild merge equals the field-wise overlay |
| `Persons.MergeNoChanges` | main.py:161-163 | an update that sets nothing gives the stored record back |
| `Persons.MergeIdempotent` | main.py:161-163 | applying the same update a second time changes nothing more |
| `Persons.NewPerson` | main.py:113 | the new record is exactly what `PersonRead(**d)` rebuilds from the payload's dump once the generated id and the two timestamps are filled in |
| `Persons.CreatePerson` | main.py:110-115 | the new record carries the payload's fields, the generated id and the two clock readings, and is filed under its own id |
| `Persons.CreateFreshPerson` | main.py:110-115 | under a fresh id exactly one entry is added, at the end of the listing; earlier entries are unchanged and the stored record is the one returned |
| `Persons.ListPersons` | main.py:117-149 | every listed person is stored and matches every given parameter, every stored match is listed, and no parameters lists everything in insertion order |
| `Persons.Matches` | main.py:130-147 | a person passes the query iff each given text parameter equals its field, the birth-date parameter equals the `str()` text of the date as a string comparison, and each given city or country equals that of at least one embedded address; the empty query admits everyone (the per-parameter tests `UniIs` to `BirthDateIs` share this row) |
| `Persons.LivesInCity` | main.py:145 | `any(addr.city == city for addr in p.addresses)`: true iff at least one embedded address has exactly that city text, so never for a person without addresses |
| `Persons.LivesInCountry` | main.py:147 | `any(addr.country == country for addr in p.addresses)`: true iff at least one embedded address has exactly that country text, so never for a person without addresses |
| `Persons.ListPersonsIsOneFilter` | main.py:128-147 | the eight chained comprehensions are one comprehension with the conjunction, so the result is an ordered subsequence of the listing, and every stored record appears in the result as often as in the listing if it matches and not at all otherwise |
| `Persons.BirthDateMatchIsCanonicalText` | main.py:141 | the test `str(p.birth_date) == birth_date` (`Persons.BirthDateIs`) compares text: it holds iff the parameter is the canonical `YYYY-MM-DD` text of the stored date, so a parameter that parses to the same date in another spelling does not match |
| `Persons.NonCanonicalBirthDateListsNobody` | main.py:140-141 | a birth-date parameter that is not a canonical date text lists nobody |
| `Persons.NoAddressesNoPlaceMatch` | main.py:143-147 | a person with no addresses is never listed when a city or country parameter is given |
| `Persons.NestedCityExample` | main.py:144-145 | worked example: a person with addresses in NYC and Boston matches a city query for either and not for Chicago |
| `Persons.GetPerson` | main.py:151-155 | the record is returned iff its id is stored, otherwise NotFound |
| `Persons.PatchPerson` | main.py:157-164 | absent id: NotFound and nothing changes; a present id with a null-free update always succeeds with the field-wise overlay, which replaces the stored record in place; on failure nothing changes |
| `Persons.PatchNoChanges` | main.py:157-164 | patching with an empty update returns the stored record and leaves the store as it was |
| `Persons.CreateKeepsConsistent` | main.py:110-115 | under a monotone clock a create keeps every record keyed by its own id with `created_at <= updated_at` |
| `Persons.PatchKeepsConsistent` | main.py:157-164 | a patch keeps every record keyed by its own id with `created_at <= updated_at` |
| `Accounts.ParseCreate` | models/account.py:6-21 | a payload is accepted iff it has a string `username`, an integer `number_id` and a numeric `amount` (an integer is converted); missing any of them is refused; an accepted payload carries exactly those values |
| `Accounts.CreateRoundTrip` | models/account.py:35-47 | an AccountCreate read back from its own `model_dump()` is the same payload |
| `Accounts.CreateDump` | main.py:211 | `account.model_dump()` holds exactly `username`, `number_id` and `amount`, and no id or timestamp |
| `Accounts.ParseUpdate` | models/account.py:49-65 | every Update field is optional: an empty payload is the empty update, and a field is unset iff its key is absent |
| `Accounts.DumpUpdate` | models/account.py:49-65 | the update dump holds only `username`, `number_id` and `amount` keys, never the id or a timestamp, and is empty iff nothing was set |
| `Accounts.UpdateRoundTrip` | models/account.py:49-65 | an update read back from its own dump is the same update, including unset and null fields |
| `Accounts.Dump` | main.py:242 | the dump of a stored account has exactly one key per declared field: `username`, `number_id`, `amount`, the id and both timestamps |
| `Accounts.Build` | main.py:244 | `AccountRead(**d)` succeeds iff `username` is a string, `number_id` an integer, `amount` a float or an integer, and the id and both timestamps are present with their types, so a missing or null field fails; the record takes every field from the dict, an integer amount converted |
| `Accounts.BuildDump` | models/account.py:78-94 | rebuilding an AccountRead from its own dump gives the record back |
| `Accounts.Overlay` | models/account.py:49-65 | the reference merge keeps id and timestamps, and fails iff a field is set to null |
| `Accounts.Merged` | main.py:242-243 | `dict.update` with the update's dump adds no key, and the id and both timestamps keep their stored values |
| `Accounts.BuildMerged` | main.py:242-244 | rebuilding the updated dump validates to exactly the field-wise overlay |
| `Accounts.Merge` | main.py:242-244 | the merge keeps id and timestamps, and fails iff a field is set to null |
| `Accounts.MergeIsOverlay` | main.py:242-244 | the dump/update/rebuild merge equals the field-wise overlay |
| `Accounts.MergeReplacesExactlyGiven` | main.py:242-244 | a successful merge takes each set field's value, keeps each unset field, and keeps id and timestamps |
| `Accounts.MergeNoChanges` | models/account.py:49-65 | an update that sets nothing gives the stored record back |
| `Accounts.MergeIdempotent` | models/account.py:51-65 | applying the same update a second time changes nothing more |
| `Accounts.NewAccount` | main.py:211 | the new record is exactly what `AccountRead(**d)` rebuilds from the payload's dump once the id and the two timestamps are filled in as their default factories would |
| `Accounts.CreateAccount` | main.py:208-213 | the new AccountRead keeps the payload's fields exactly, carries the generated id and the two clock readings, and is filed under its id |
| `Accounts.CreateFreshAccount` | models/account.py:78-84 | under an id not among the current keys exactly one entry is added, at the end of the listing; earlier entries are unchanged and the stored record is the one returned |
| `Accounts.ListAccounts` | main.py:215-230 | every listed account is stored and matches every given parameter, every stored match is listed, and no parameters lists everything in insertion order |
| `Accounts.Matches` | main.py:223-228 | an account passes the query iff each given parameter equals its field exactly, `amount` included; the empty query admits every account (the per-parameter tests `UsernameIs`, `NumberIdIs` and `AmountIs` share this row) |
| `Accounts.ListAccountsIsOneFilter` | main.py:221-228 | the three chained comprehensions are one comprehension with the conjunction, so the result is an ordered subsequence of the listing, and every stored record appears in the result as often as in the listing if it matches and not at all otherwise |
| `Accounts.ListAfterFreshCreate` | main.py:211-212 | after a create under a fresh id, every listing is the earlier listing followed by the new account exactly when it matches the query |
| `Accounts.ListAccountsOrderFree` | main.py:223-228 | applying the three parameters in reverse order gives the same list |
| `Accounts.GetAccount` | main.py:232-236 | the record is returned iff its id is stored, otherwise NotFound |
| `Accounts.PatchAccount` | main.py:238-245 | absent id: NotFound and nothing changes; a present id with a null-free update always succeeds with the field-wise overlay, which replaces the stored record in place; on failure nothing changes |
| `Accounts.PatchNoChanges` | main.py:238-245 | patching with an empty update returns the stored record and leaves the store as it was |
| `Accounts.PatchAccountInPlace` | main.py:242-245 | after a successful patch the listing differs only at the patched record's position |
| `Accounts.CreateKeepsConsistent` | models/account.py:85-94 | under a monotone clock a create keeps every account keyed by its own id with `created_at <= updated_at` |
| `Accounts.PatchKeepsConsistent` | main.py:238-245 | a patch keeps every account keyed by its own id with `created_at <= updated_at` |
| `Classes.ParseCreate` | models/classes.py:5-15 | a payload is accepted iff it has a string `name` and a `description` that is absent, null or a string; a missing or null `description` gives null, a string is kept |
| `Classes.CreateRoundTrip` | models/classes.py:28-39 | a ClassCreate read back from its own `model_dump()` is the same payload, a null description included |
| `Classes.CreateDump` | main.py:172 | `cls.model_dump()` holds exactly `name` and `description`, null when absent, and no id or timestamp |
| `Classes.ParseUpdate` | models/classes.py:41-52 | both Update fields are optional: an empty payload is the empty update, and a field is unset iff its key is absent |
| `Classes.DumpUpdate` | models/classes.py:41-52 | the update dump holds only `name` and `description` keys, never a timestamp, and is empty iff nothing was set |
| `Classes.UpdateRoundTrip` | models/classes.py:41-52 | an update read back from its own dump is the same update, including unset and null fields |
| `Classes.Dump` | models/classes.py:64-75 | the dump of a ClassRead has exactly one key per declared field, `name`, `description` and both timestamps, and so no `id` key |
| `Classes.Build` | main.py:202 | `ClassRead(**d)` succeeds iff `name` is a string, `description` is absent, null or a string, and both timestamps are present with their type; a missing or null description reads as null; no id is needed or read |
| `Classes.BuildDump` | models/classes.py:64-75 | rebuilding a ClassRead from its own dump gives the record back |
| `Classes.Overlay` | models/classes.py:41-52 | the reference merge keeps both timestamps and fails iff `name` is set to null; a null description is allowed |
| `Classes.Merged` | main.py:200-201 | `dict.update` with the update's dump adds no key, so there is still no `id`, and both timestamps keep their stored values |
| `Classes.MergedDescription` | models/classes.py:11-15 | after `dict.update` the description is the stored one when unset, and the given value, null included, when set |
| `Classes.BuildMerged` | main.py:200-202 | rebuilding the updated dump validates to exactly the field-wise overlay |
| `Classes.Merge` | main.py:200-202 | the merge keeps both timestamps and fails iff `name` is set to null |
| `Classes.MergeIsOverlay` | main.py:200-202 | the dump/update/rebuild merge equals the field-wise overlay |
| `Classes.MergeReplacesExactlyGiven` | models/classes.py:41-52 | unset fields keep their values; a set name takes the given value; a set description, null included, replaces the stored one |
| `Classes.MergeNoChanges` | models/classes.py:41-52 | an update that sets nothing gives the stored record back |
| `Classes.MergeIdempotent` | models/classes.py:41-52 | applying the same update a second time changes nothing more |
| `Classes.NewClass` | main.py:172 | the new record is exactly what `ClassRead(**d)` rebuilds from the payload's dump once the two timestamps are filled in; no id is involved |
| `Classes.CreateClassAsWritten` | main.py:169-174 | the handler as written never stores anything and always fails, because `class_read.id` does not exist |
| `Classes.ClassesNeverStoredAsWritten` | main.py:169-174 | from the empty dict, any run of create and patch requests leaves the dict empty, so every get is NotFound and every listing is empty |
| `Classes.CreateClass` | models/classes.py:64-75 | the corrected create keeps `name` and `description` exactly and files the record under a supplied key |
| `Classes.CreateFreshClass` | main.py:172-174 | under a fresh key exactly one entry is added, at the end of the listing; earlier entries are unchanged and the stored record is the one returned |
| `Classes.ListClasses` | main.py:176-188 | every listed class is stored and matches every given parameter, every stored match is listed, and no parameters lists everything in insertion order |
| `Classes.Matches` | main.py:183-186 | a class passes the query iff a given `name` equals its name and a given `description` equals its description, so a class whose description is null passes only when no description is given; the empty query admits every class (the per-parameter tests `NameIs` and `DescriptionIs` share this row) |
| `Classes.ListClassesIsOneFilter` | main.py:181-186 | the two comprehensions are one comprehension with the conjunction, commute, and give an ordered subsequence of the listing in which a matching class occurs as often as in the listing (two equal classes can sit under different keys) and a non-matching one not at all |
| `Classes.GetClass` | main.py:190-194 | the record is returned iff its key is stored, otherwise NotFound |
| `Classes.PatchClass` | main.py:196-203 | absent key: NotFound; null name: InvalidRecord and nothing changes; any other update of a present key succeeds with the field-wise overlay, which replaces the stored record in place |
| `Classes.PatchNoChanges` | main.py:196-203 | patching with an empty update returns the stored record and leaves the store as it was |
| `Classes.CreateKeepsStampsOrdered` | models/classes.py:64-75 | under a monotone clock a create keeps `created_at <= updated_at` for every class |
| `Classes.PatchKeepsStampsOrdered` | main.py:196-203 | a patch keeps `created_at <= updated_at` for every class |

## Left out

- HTTP routing, `Query`/`Path` declarations and status codes: errors are values of `Error`, not raised exceptions.
- The health endpoints, the root message, the port setting and server startup: they are I/O and environment.
- UUID generation and the UTC clock: the generated id and the two clock readings are parameters. Freshness is a hypothesis of the `CreateFresh…` lemmas, because the Person, Class and Account handlers assign without checking. The Address handler does check, and `Addresses.CreateAddress` models that check (main.py:64-65).
- Floating point: `amount` is a `real` compared by exact equality. Pydantic's coercions between types (for example a numeric string into a number) are not modelled. A `float` field does accept an `int`.
- Concurrency: the module-level dicts are treated as sequential state.
- The Address and Person shapes: models/address.py and models/person.py are not part of this model. Their fields come from how main.py uses them. The id and timestamps follow the other Read shapes. `AddressCreate` carries the client's id (main.py:64).
- Optional Address and Person fields: the model assumes every Address field (`street`, `city`, `state`, `postal_code`, `country`) and every Person field (`uni`, `first_name`, `last_name`, `email`, `phone`, `birth_date`, `addresses`) is required and never null. This assumption decides that `Addresses.Merge` and `Persons.Merge` fail iff some field is set to null. If any of these fields were nullable in the unseen shapes, a null would be a legal value there, and a null `birth_date` would compare as the text "None" at main.py:141.
- Address and Person request payloads: there is no `ParseCreate` for them, because their Create shapes are not part of this model. `Persons.ParseUpdate` and `Addresses.ParseUpdate` are missing for the same reason.
- `Persons.DumpUpdate`: does not state that the dump is empty only for the empty update (the converse of `Persons.DumpNoChanges`), to keep the proof cheap.
- `Read(**d)` with a missing id or timestamp: pydantic fills the missing field from its `default_factory` (models/account.py:80-94, models/classes.py:66-75). The model's rebuild of a Read record (`Build`) instead treats a missing key as invalid. The patch handlers are unaffected: every dump they rebuild from (main.py:102-104, 161-163, 200-202, 242-244) carries every key its Read shape declares, that is, the id where the shape has one (`ClassRead` has none) and both timestamps. The create handlers rebuild from a Create dump that lacks the generated keys (main.py:66, 113, 172, 211). `NewAddress`, `NewPerson`, `NewClass` and `NewAccount` model them: each is `Build` of the Create dump with those keys filled in, the timestamps being the parameters `t0` and `t1`. `NewPerson` and `NewAccount` take the generated id as the parameter `id`. `NewAddress` takes the client's id from its payload. `NewClass` takes none, and the corrected `CreateClass` stores the record under a separate `key`.

## Findings

| source | as written | input that shows it | evidently intended | confidence | as-written member | corrected member |
|---|---|---|---|---|---|---|
| main.py:172-173 with models/classes.py:64-75 | `create_class` files the record under `class_read.id`, but `ClassRead` declares no `id` field, so the attribute read fails after validation and nothing is stored | any valid ClassCreate, such as `{"name": "Mathematics 101"}` | the new class is filed under a freshly generated id, as for Person and Account | not executed; high (pydantic models raise AttributeError for undeclared attributes) | `Classes.CreateClassAsWritten` | `Classes.CreateClass` |

=== FILE: accounts.dfy ===
/** The Account collection: the shapes of models/account.py and the
    create / list / get / patch handlers of main.py over them. */
module Accounts {
  import opened Outcomes
  import opened Partial
  import opened Dumps
  import opened Filtering
  import opened Stores

  /** `AccountCreate`: every field is required, none has a default. */
  datatype AccountCreate = AccountCreate(username: string, numberId: int, amount: real)

  /** `AccountUpdate`: every field optional and unset by default.  There is
      no `id`, `created_at` or `updated_at` field. */
  datatype AccountUpdate = AccountUpdate(
    username: Presence<Option<string>>,
    numberId: Presence<Option<int>>,
    amount: Presence<Option<real>>)

  const NoChanges := AccountUpdate(Unset, Unset, Unset)

  /** `AccountRead`: the domain fields plus a server-generated id and two
      UTC timestamps. */
  datatype AccountRead = AccountRead(
    username: string, numberId: int, amount: real,
    id: Uuid, createdAt: Timestamp, updatedAt: Timestamp)

  /** The query parameters of `GET /accounts`; None means "not given". */
  datatype AccountQuery = AccountQuery(username: Option<string>, numberId: Option<int>, amount: Option<real>)

  const AnyAccount := AccountQuery(None, None, None)

  /** The fields of `AccountCreate`, and those of `AccountRead`. */
  const CreateKeys := {Username, NumberId, Amount}
  const ReadKeys := CreateKeys + {Id, CreatedAt, UpdatedAt}

  type AccountStore = Store<AccountRead>

  // ---------------------------------------------------------------------------
  // Payload validation and dumps
  // ---------------------------------------------------------------------------

  /** Validating a request body as an `AccountCreate`. */
  function ParseCreate(d: Dict): (r: Option<AccountCreate>)
    ensures Username !in d || NumberId !in d || Amount !in d ==> r.None?
    ensures r.Some? <==>
      && Username in d && d[Username].VStr?
      && NumberId in d && d[NumberId].VInt?
      && Amount in d && (d[Amount].VFloat? || d[Amount].VInt?)
    ensures r.Some? ==>
      && d[Username] == VStr(r.value.username)
      && d[NumberId] == VInt(r.value.numberId)
      && AsFloat(d[Amount]) == Some(r.value.amount)
  {
    var username :- Required(d, Username, AsStr);
    var numberId :- Required(d, NumberId, AsInt);
    var amount :- Required(d, Amount, AsFloat);
    Some(AccountCreate(username, numberId, amount))
  }

  /** Validating a request body as an `AccountUpdate`; a key the body does
      not mention leaves its field unset. */
  function ParseUpdate(d: Dict): (r: Option<AccountUpdate>)
    ensures d == map[] ==> r == Some(NoChanges)
    ensures r.Some? ==>
      && (r.value.username.Unset? <==> Username !in d)
      && (r.value.numberId.Unset? <==> NumberId !in d)
      && (r.value.amount.Unset? <==> Amount !in d)
  {
    var username :- UpdateField(d, Username, AsStr);
    var numberId :- UpdateField(d, NumberId, AsInt);
    var amount :- UpdateField(d, Amount, AsFloat);
    Some(AccountUpdate(username, numberId, amount))
  }

  /** `account.model_dump()`: the payload's own fields and nothing the
      server generates. */
  function CreateDump(c: AccountCreate): (d: Dict)
    ensures d.Keys == CreateKeys
    ensures Id !in d && CreatedAt !in d && UpdatedAt !in d
  {
    map[Username := VStr(c.username), NumberId := VInt(c.numberId), Amount := VFloat(c.amount)]
  }

  /** A payload read back from its own dump is the same payload. */
  lemma CreateRoundTrip(c: AccountCreate)
    ensures ParseCreate(CreateDump(c)) == Some(c)
  {
    var d := CreateDump(c);
    assert Required(d, Username, AsStr) == Some(c.username);
    assert Required(d, NumberId, AsInt) == Some(c.numberId);
    assert Required(d, Amount, AsFloat) == Some(c.amount);
  }

  const UpdateKeys := CreateKeys

  /** The dump of one field of an update. */
  function Slot(u: AccountUpdate, k: Key): Presence<Value> {
    match k
    case Username => Dumped(u.username, StrValue)
    case NumberId => Dumped(u.numberId, IntValue)
    case Amount => Dumped(u.amount, FloatValue)
    case _ => Unset
  }

  /** `update.model_dump(exclude_unset=True)`: one key per explicitly set
      field, null for a field set to null. */
  function DumpUpdate(u: AccountUpdate): (d: Dict)
    ensures d.Keys <= UpdateKeys
    ensures Id !in d && CreatedAt !in d && UpdatedAt !in d
    ensures d == map[] <==> u == NoChanges
  {
    var d := map k | k in UpdateKeys && Slot(u, k).Given? :: Slot(u, k).value;
    assert u.username.Given? ==> Username in d;
    assert u.numberId.Given? ==> NumberId in d;
    assert u.amount.Given? ==> Amount in d;
    d
  }

  /** An update read back from its own dump is the same update. */
  lemma UpdateRoundTrip(u: AccountUpdate)
    ensures ParseUpdate(DumpUpdate(u)) == Some(u)
  {
    var d := DumpUpdate(u);
    assert UpdateField(d, Username, AsStr) == Some(u.username);
    assert UpdateField(d, NumberId, AsInt) == Some(u.numberId);
    assert UpdateField(d, Amount, AsFloat) == Some(u.amount);
  }

  /** `read.model_dump()`: one key per declared field. */
  function Dump(r: AccountRead): (d: Dict)
    ensures d.Keys == ReadKeys
  {
    map[
      Username := VStr(r.username),
      NumberId := VInt(r.numberId),
      Amount := VFloat(r.amount),
      Id := VUuid(r.id),
      CreatedAt := VTime(r.createdAt),
      UpdatedAt := VTime(r.updatedAt)]
  }

  /** `AccountRead(**d)` for a dict that carries every field: a missing,
      null or ill-typed field fails validation, and the record takes every
      field, the id and the timestamps included, from the dict. */
  function Build(d: Dict): (r: Option<AccountRead>)
    ensures r.Some? <==>
      && Username in d && d[Username].VStr?
      && NumberId in d && d[NumberId].VInt?
      && Amount in d && (d[Amount].VFloat? || d[Amount].VInt?)
      && Id in d && d[Id].VUuid?
      && CreatedAt in d && d[CreatedAt].VTime?
      && UpdatedAt in d && d[UpdatedAt].VTime?
    ensures r.Some? ==>
      && d[Username] == VStr(r.value.username)
      && d[NumberId] == VInt(r.value.numberId)
      && AsFloat(d[Amount]) == Some(r.value.amount)
      && d[Id] == VUuid(r.value.id)
      && d[CreatedAt] == VTime(r.value.createdAt)
      && d[UpdatedAt] == VTime(r.value.updatedAt)
  {
    var username :- Required(d, Username, AsStr);
    var numberId :- Required(d, NumberId, AsInt);
    var amount :- Required(d, Amount, AsFloat);
    var id :- Required(d, Id, AsUuid);
    var createdAt :- Required(d, CreatedAt, AsTime);
    var updatedAt :- Required(d, UpdatedAt, AsTime);
    Some(AccountRead(username, numberId, amount, id, createdAt, updatedAt))
  }

  lemma BuildDump(r: AccountRead)
    ensures Build(Dump(r)) == Some(r)
  {
  }

  // ---------------------------------------------------------------------------
  // The partial-update merge
  // ---------------------------------------------------------------------------

  /** Field-by-field reference for the merge: each explicitly set field
      replaces the stored one; a null in a required field is refused. */
  function Overlay(r: AccountRead, u: AccountUpdate): (m: Option<AccountRead>)
    ensures m.Some? ==> m.value.id == r.id && m.value.createdAt == r.createdAt && m.value.updatedAt == r.updatedAt
    ensures m.None? <==> u.username == Given(None) || u.numberId == Given(None) || u.amount == Given(None)
  {
    var username :- OverlayRequired(r.username, u.username);
    var numberId :- OverlayRequired(r.numberId, u.numberId);
    var amount :- OverlayRequired(r.amount, u.amount);
    Some(AccountRead(username, numberId, amount, r.id, r.createdAt, r.updatedAt))
  }

  /** The dict the patch handler rebuilds from: `Dump(r)` after
      `dict.update` with the update's dump (a right-biased map union). */
  function Merged(r: AccountRead, u: AccountUpdate): (m: Dict)
    ensures m.Keys == ReadKeys
    ensures m[Id] == VUuid(r.id) && m[CreatedAt] == VTime(r.createdAt) && m[UpdatedAt] == VTime(r.updatedAt)
  {
    Dump(r) + DumpUpdate(u)
  }

  // Each field of the merged dict validates to the overlaid field.
  lemma MergedUsername(r: AccountRead, u: AccountUpdate)
    ensures Required(Merged(r, u), Username, AsStr) == OverlayRequired(r.username, u.username)
  {
  }

  lemma MergedNumberId(r: AccountRead, u: AccountUpdate)
    ensures Required(Merged(r, u), NumberId, AsInt) == OverlayRequired(r.numberId, u.numberId)
  {
  }

  lemma MergedAmount(r: AccountRead, u: AccountUpdate)
    ensures Required(Merged(r, u), Amount, AsFloat) == OverlayRequired(r.amount, u.amount)
  {
  }

  /** The id and the timestamps pass through the merge untouched. */
  lemma MergedStamps(r: AccountRead, u: AccountUpdate)
    ensures Required(Merged(r, u), Id, AsUuid) == Some(r.id)
    ensures Required(Merged(r, u), CreatedAt, AsTime) == Some(r.createdAt)
    ensures Required(Merged(r, u), UpdatedAt, AsTime) == Some(r.updatedAt)
  {
  }

  /** Rebuilding the merged dict validates exactly what the overlay accepts. */
  lemma BuildMerged(r: AccountRead, u: AccountUpdate)
    ensures Build(Merged(r, u)) == Overlay(r, u)
  {
    MergedUsername(r, u);
    MergedNumberId(r, u);
    MergedAmount(r, u);
    MergedStamps(r, u);
  }

  /** The merge as the patch handler performs it: dump the stored record,
      `dict.update` it with the explicitly set update fields, and rebuild
      the Read record. */
  function Merge(r: AccountRead, u: AccountUpdate): (m: Option<AccountRead>)
    ensures m.Some? ==> m.value.id == r.id && m.value.createdAt == r.createdAt && m.value.updatedAt == r.updatedAt
    ensures m.None? <==> u.username == Given(None) || u.numberId == Given(None) || u.amount == Given(None)
  {
    BuildMerged(r, u);
    Build(Merged(r, u))
  }

  lemma MergeIsOverlay(r: AccountRead, u: AccountUpdate)
    ensures Merge(r, u) == Overlay(r, u)
  {
    BuildMerged(r, u);
  }

  /** A successful merge replaces exactly the explicitly set fields. */
  lemma MergeReplacesExactlyGiven(r: AccountRead, u: AccountUpdate)
    requires Merge(r, u).Some?
    ensures var m := Merge(r, u).value;
      && (if u.username.Given? then u.username.value == Some(m.username) else m.username == r.username)
      && (if u.numberId.Given? then u.numberId.value == Some(m.numberId) else m.numberId == r.numberId)
      && (if u.amount.Given? then u.amount.value == Some(m.amount) else m.amount == r.amount)
      && m.id == r.id && m.createdAt == r.createdAt && m.updatedAt == r.updatedAt
  {
    MergeIsOverlay(r, u);
  }

  lemma MergeNoChanges(r: AccountRead)
    ensures Merge(r, NoChanges) == Some(r)
  {
    MergeIsOverlay(r, NoChanges);
  }

  /** Applying the same update a second time changes nothing more. */
  lemma MergeIdempotent(r: AccountRead, u: AccountUpdate)
    requires Overlay(r, u).Some?
    ensures Merge(Merge(r, u).value, u) == Merge(r, u)
  {
    MergeIsOverlay(r, u);
    MergeIsOverlay(Merge(r, u).value, u);
    OverlayRequiredTwice(r.username, u.username);
    OverlayRequiredTwice(r.numberId, u.numberId);
    OverlayRequiredTwice(r.amount, u.amount);
  }

  // ---------------------------------------------------------------------------
  // Handlers
  // ---------------------------------------------------------------------------

  /** `AccountRead(**account.model_dump())`: the id and the two timestamps
      come from their default factories, here the parameters `id` and the
      two successive clock readings `t0` and `t1`. */
  function NewAccount(c: AccountCreate, id: Uuid, t0: Timestamp, t1: Timestamp): (r: AccountRead)
    ensures Build(CreateDump(c) + map[Id := VUuid(id), CreatedAt := VTime(t0), UpdatedAt := VTime(t1)]) == Some(r)
  {
    AccountRead(c.username, c.numberId, c.amount, id, t0, t1)
  }

  /** `POST /accounts`: the new record is filed under its own id. */
  function CreateAccount(s: AccountStore, c: AccountCreate, id: Uuid, t0: Timestamp, t1: Timestamp)
    : (res: (AccountStore, AccountRead))
    requires Valid(s)
    ensures Valid(res.0)
    ensures res.1.username == c.username && res.1.numberId == c.numberId && res.1.amount == c.amount
    ensures res.1.id == id && res.1.createdAt == t0 && res.1.updatedAt == t1
    ensures res.0.entries == s.entries[id := res.1]
  {
    var r := NewAccount(c, id, t0, t1);
    (Put(s, r.id, r), r)
  }

  /** Creating under a fresh id adds exactly one entry, at the end of the
      listing, and returns the record it stored. */
  lemma CreateFreshAccount(s: AccountStore, c: AccountCreate, id: Uuid, t0: Timestamp, t1: Timestamp)
    requires Valid(s) && id !in s.entries
    ensures var (s', r) := CreateAccount(s, c, id, t0, t1);
      && s'.order == s.order + [id]
      && s'.entries.Keys == s.entries.Keys + {id}
      && (forall k :: k in s.entries ==> s'.entries[k] == s.entries[k])
      && s'.entries[id] == r
      && Values(s') == Values(s) + [r]
  {
    var r := NewAccount(c, id, t0, t1);
    ValuesAfterFreshPut(s, id, r);
  }

  predicate UsernameIs(v: string, a: AccountRead) { a.username == v }
  predicate NumberIdIs(v: int, a: AccountRead) { a.numberId == v }
  predicate AmountIs(v: real, a: AccountRead) { a.amount == v }

  /** The conjunction of the query's set parameters: each parameter given
      equals its field, and an empty query admits every account. */
  predicate Matches(q: AccountQuery, a: AccountRead): (b: bool)
    ensures b <==>
      && (q.username.None? || q.username == Some(a.username))
      && (q.numberId.None? || q.numberId == Some(a.numberId))
      && (q.amount.None? || q.amount == Some(a.amount))
    ensures q == AnyAccount ==> b
  {
    && Admits(q.username, UsernameIs, a)
    && Admits(q.numberId, NumberIdIs, a)
    && Admits(q.amount, AmountIs, a)
  }

  /** `GET /accounts`: one comprehension per parameter, in declaration order. */
  function ListAccounts(s: AccountStore, q: AccountQuery): (r: seq<AccountRead>)
    requires Valid(s)
    ensures forall i :: 0 <= i < |r| ==> r[i] in Values(s) && Matches(q, r[i])
    ensures forall i :: 0 <= i < |Values(s)| && Matches(q, Values(s)[i]) ==> Values(s)[i] in r
    ensures q == AnyAccount ==> r == Values(s)
  {
    Narrow(Narrow(Narrow(Values(s), q.username, UsernameIs), q.numberId, NumberIdIs), q.amount, AmountIs)
  }

  /** The chained comprehensions are one pass with the conjunction, so the
      result is an ordered subsequence of the listing. */
  lemma ListAccountsIsOneFilter(s: AccountStore, q: AccountQuery)
    requires Valid(s)
    ensures ListAccounts(s, q) == Filter(Values(s), a => Matches(q, a))
    ensures IsSubsequence(ListAccounts(s, q), Values(s))
    ensures forall i :: 0 <= i < |Values(s)| ==>
      multiset(ListAccounts(s, q))[Values(s)[i]] == if Matches(q, Values(s)[i]) then multiset(Values(s))[Values(s)[i]] else 0
  {
    var vs := Values(s);
    var p1 := a => Admits(q.username, UsernameIs, a);
    var p2 := a => p1(a) && Admits(q.numberId, NumberIdIs, a);
    NarrowIsFilter(vs, q.username, UsernameIs);
    NarrowAfterFilter(vs, p1, q.numberId, NumberIdIs, p2);
    NarrowAfterFilter(vs, p2, q.amount, AmountIs, a => Matches(q, a));
    FilterCounts(vs, a => Matches(q, a));
  }

  /** Applying the parameters in the opposite order gives the same list. */
  lemma ListAccountsOrderFree(s: AccountStore, q: AccountQuery)
    requires Valid(s)
    ensures ListAccounts(s, q)
      == Narrow(Narrow(Narrow(Values(s), q.amount, AmountIs), q.numberId, NumberIdIs), q.username, UsernameIs)
  {
    var vs := Values(s);
    NarrowCommutes(vs, q.username, UsernameIs, q.numberId, NumberIdIs);
    NarrowCommutes(Narrow(vs, q.numberId, NumberIdIs), q.username, UsernameIs, q.amount, AmountIs);
    NarrowCommutes(vs, q.numberId, NumberIdIs, q.amount, AmountIs);
  }

  /** After a create under a fresh id, a listing is the earlier listing
      followed by the new account if it matches the query. */
  lemma ListAfterFreshCreate(s: AccountStore, c: AccountCreate, id: Uuid, t0: Timestamp, t1: Timestamp, q: AccountQuery)
    requires Valid(s) && id !in s.entries
    ensures var (s', r) := CreateAccount(s, c, id, t0, t1);
      ListAccounts(s', q) == ListAccounts(s, q) + (if Matches(q, r) then [r] else [])
  {
    var (s', r) := CreateAccount(s, c, id, t0, t1);
    CreateFreshAccount(s, c, id, t0, t1);
    ListAccountsIsOneFilter(s, q);
    ListAccountsIsOneFilter(s', q);
    FilterSnoc(Values(s), r, a => Matches(q, a));
  }

  /** `GET /accounts/{id}`. */
  function GetAccount(s: AccountStore, id: Uuid): (r: Result<AccountRead>)
    ensures r.Success? <==> id in s.entries
    ensures r.Success? ==> r.value == s.entries[id]
    ensures r.Failure? ==> r.error == NotFound
  {
    Get(s, id)
  }

  /** `PATCH /accounts/{id}`. */
  function PatchAccount(s: AccountStore, id: Uuid, u: AccountUpdate): (res: (AccountStore, Result<AccountRead>))
    requires Valid(s)
    ensures Valid(res.0)
    ensures id !in s.entries ==> res == (s, Failure(NotFound))
    ensures res.1.Failure? ==> res.0 == s
    ensures id in s.entries && Overlay(s.entries[id], u).Some? ==> res.1 == Success(Overlay(s.entries[id], u).value)
    ensures res.1.Success? ==>
      && id in s.entries
      && Overlay(s.entries[id], u) == Some(res.1.value)
      && res.0.order == s.order
      && res.0.entries == s.entries[id := res.1.value]
  {
    var res := Patch(s, id, a => Merge(a, u));
    if id in s.entries then MergeIsOverlay(s.entries[id], u); res else res
  }

  /** Patching with an update that sets nothing returns the stored record
      and leaves the store as it was. */
  lemma PatchNoChanges(s: AccountStore, id: Uuid)
    requires Valid(s) && id in s.entries
    ensures PatchAccount(s, id, NoChanges) == (s, Success(s.entries[id]))
  {
    MergeNoChanges(s.entries[id]);
    PutSameValue(s, id);
  }

  /** The listing after a successful patch differs only at the patched key. */
  lemma PatchAccountInPlace(s: AccountStore, id: Uuid, u: AccountUpdate)
    requires Valid(s) && PatchAccount(s, id, u).1.Success?
    ensures var (s', r) := PatchAccount(s, id, u);
      && |Values(s')| == |Values(s)|
      && forall i :: 0 <= i < |s.order| ==> Values(s')[i] == if s.order[i] == id then r.value else Values(s)[i]
  {
    var r := PatchAccount(s, id, u).1.value;
    ValuesAfterPutExisting(s, id, r);
  }

  // ---------------------------------------------------------------------------
  // Store invariants
  // ---------------------------------------------------------------------------

  function AccountId(a: AccountRead): Uuid { a.id }

  predicate StampsOrdered(a: AccountRead) { a.createdAt <= a.updatedAt }

  /** Every record is filed under its own id and was created no later than
      it was last updated. */
  ghost predicate Consistent(s: AccountStore) {
    Valid(s) && KeyedBy(s, AccountId) && All(s, StampsOrdered)
  }

  /** Under a monotone clock (`t0 <= t1`) creation keeps the store consistent. */
  lemma CreateKeepsConsistent(s: AccountStore, c: AccountCreate, id: Uuid, t0: Timestamp, t1: Timestamp)
    requires Consistent(s) && t0 <= t1
    ensures Consistent(CreateAccount(s, c, id, t0, t1).0)
  {
    var r := NewAccount(c, id, t0, t1);
    PutKeepsInvariants(s, id, r, AccountId, StampsOrdered);
  }

  lemma PatchKeepsConsistent(s: AccountStore, id: Uuid, u: AccountUpdate)
    requires Consistent(s)
    ensures Consistent(PatchAccount(s, id, u).0)
  {
    PatchKeepsInvariants(s, id, a => Merge(a, u), AccountId, StampsOrdered);
  }
}

=== FILE: addresses.dfy ===
/** The Address collection and the address fields that persons embed.
    The client may supply the id of a new Address, so its create handler
    refuses an id already stored. */
module Addresses {
  import opened Outcomes
  import opened Partial
  import opened Dumps
  import opened Filtering
  import opened Stores

  /** The domain fields of an address, shared by every Address shape and by
      the addresses embedded in a person. */
  datatype AddressFields = AddressFields(street: string, city: string, state: string, postalCode: string, country: string)

  /** `AddressCreate`: the fields and the id the record will carry. */
  datatype AddressCreate = AddressCreate(id: Uuid, fields: AddressFields)

  /** `AddressUpdate`: every domain field optional and unset by default. */
  datatype AddressUpdate = AddressUpdate(
    street: Presence<Option<string>>,
    city: Presence<Option<string>>,
    state: Presence<Option<string>>,
    postalCode: Presence<Option<string>>,
    country: Presence<Option<string>>)

  const NoChanges := AddressUpdate(Unset, Unset, Unset, Unset, Unset)

  datatype AddressRead = AddressRead(id: Uuid, fields: AddressFields, createdAt: Timestamp, updatedAt: Timestamp)

  datatype AddressQuery = AddressQuery(
    street: Option<string>, city: Option<string>, state: Option<string>,
    postalCode: Option<string>, country: Option<string>)

  const AnyAddress := AddressQuery(None, None, None, None, None)

  type AddressStore = Store<AddressRead>

  /** The address fields; those of `AddressCreate`; those of `AddressRead`. */
  const FieldKeys := {Street, City, State, PostalCode, Country}
  const CreateKeys := FieldKeys + {Id}
  const ReadKeys := CreateKeys + {CreatedAt, UpdatedAt}

  // ---------------------------------------------------------------------------
  // Dumps
  // ---------------------------------------------------------------------------

  function FieldsDump(f: AddressFields): (d: Dict)
    ensures d.Keys == FieldKeys
  {
    map[
      Street := VStr(f.street),
      City := VStr(f.city),
      State := VStr(f.state),
      PostalCode := VStr(f.postalCode),
      Country := VStr(f.country)]
  }

  /** Validating the address fields of a dict: each must be a string. */
  function BuildFields(d: Dict): (r: Option<AddressFields>)
    ensures r.Some? <==>
      && Street in d && d[Street].VStr? && City in d && d[City].VStr?
      && State in d && d[State].VStr? && PostalCode in d && d[PostalCode].VStr?
      && Country in d && d[Country].VStr?
    ensures r.Some? ==>
      && d[Street] == VStr(r.value.street) && d[City] == VStr(r.value.city)
      && d[State] == VStr(r.value.state) && d[PostalCode] == VStr(r.value.postalCode)
      && d[Country] == VStr(r.value.country)
  {
    var street :- Required(d, Street, AsStr);
    var city :- Required(d, City, AsStr);
    var state :- Required(d, State, AsStr);
    var postalCode :- Required(d, PostalCode, AsStr);
    var country :- Required(d, Country, AsStr);
    Some(AddressFields(street, city, state, postalCode, country))
  }

  /** An embedded address dumps to a nested dict and validates back. */
  function FieldsValue(f: AddressFields): (v: Value)
    ensures v.VObject? && BuildFields(v.fields) == Some(f)
  {
    VObject(FieldsDump(f))
  }

  function AsFields(v: Value): Option<AddressFields> {
    if v.VObject? then BuildFields(v.fields) else None
  }

  const UpdateKeys := FieldKeys

  /** The dump of one field of an update. */
  function Slot(u: AddressUpdate, k: Key): Presence<Value> {
    match k
    case Street => Dumped(u.street, StrValue)
    case City => Dumped(u.city, StrValue)
    case State => Dumped(u.state, StrValue)
    case PostalCode => Dumped(u.postalCode, StrValue)
    case Country => Dumped(u.country, StrValue)
    case _ => Unset
  }

  /** `update.model_dump(exclude_unset=True)`. */
  function DumpUpdate(u: AddressUpdate): (d: Dict)
    ensures d.Keys <= UpdateKeys
    ensures Id !in d && CreatedAt !in d && UpdatedAt !in d
    ensures d == map[] <==> u == NoChanges
    ensures Street in d <==> u.street.Given?
    ensures City in d <==> u.city.Given?
    ensures State in d <==> u.state.Given?
    ensures PostalCode in d <==> u.postalCode.Given?
    ensures Country in d <==> u.country.Given?
    ensures u.street.Given? ==> d[Street] == NullableValue(u.street.value, StrValue)
    ensures u.city.Given? ==> d[City] == NullableValue(u.city.value, StrValue)
    ensures u.state.Given? ==> d[State] == NullableValue(u.state.value, StrValue)
    ensures u.postalCode.Given? ==> d[PostalCode] == NullableValue(u.postalCode.value, StrValue)
    ensures u.country.Given? ==> d[Country] == NullableValue(u.country.value, StrValue)
  {
    var d := map k | k in UpdateKeys && Slot(u, k).Given? :: Slot(u, k).value;
    assert u.street.Given? ==> Street in d;
    assert u.city.Given? ==> City in d;
    assert u.state.Given? ==> State in d;
    assert u.postalCode.Given? ==> PostalCode in d;
    assert u.country.Given? ==> Country in d;
    d
  }

  /** `read.model_dump()`: the address fields at top level, then the id and
      the timestamps. */
  function Dump(r: AddressRead): (d: Dict)
    ensures d.Keys == ReadKeys
  {
    map[
      Street := VStr(r.fields.street),
      City := VStr(r.fields.city),
      State := VStr(r.fields.state),
      PostalCode := VStr(r.fields.postalCode),
      Country := VStr(r.fields.country),
      Id := VUuid(r.id),
      CreatedAt := VTime(r.createdAt),
      UpdatedAt := VTime(r.updatedAt)]
  }

  /** `AddressRead(**d)` for a dict that carries every field: the address
      fields validate as above, and the id and both timestamps must be
      present, non-null and of their type; every field comes from the dict. */
  function Build(d: Dict): (r: Option<AddressRead>)
    ensures r.Some? <==>
      && BuildFields(d).Some?
      && Id in d && d[Id].VUuid?
      && CreatedAt in d && d[CreatedAt].VTime?
      && UpdatedAt in d && d[UpdatedAt].VTime?
    ensures r.Some? ==>
      && r.value.fields == BuildFields(d).value
      && d[Id] == VUuid(r.value.id)
      && d[CreatedAt] == VTime(r.value.createdAt)
      && d[UpdatedAt] == VTime(r.value.updatedAt)
  {
    var fields :- BuildFields(d);
    var id :- Required(d, Id, AsUuid);
    var createdAt :- Required(d, CreatedAt, AsTime);
    var updatedAt :- Required(d, UpdatedAt, AsTime);
    Some(AddressRead(id, fields, createdAt, updatedAt))
  }

  lemma BuildDump(r: AddressRead)
    ensures Build(Dump(r)) == Some(r)
  {
  }

  // ---------------------------------------------------------------------------
  // The partial-update merge
  // ---------------------------------------------------------------------------

  /** Field-by-field reference for the merge: each explicitly set field
      replaces the stored one; a null in a required field is refused. */
  function OverlayFields(f: AddressFields, u: AddressUpdate): Option<AddressFields> {
    var street :- OverlayRequired(f.street, u.street);
    var city :- OverlayRequired(f.city, u.city);
    var state :- OverlayRequired(f.state, u.state);
    var postalCode :- OverlayRequired(f.postalCode, u.postalCode);
    var country :- OverlayRequired(f.country, u.country);
    Some(AddressFields(street, city, state, postalCode, country))
  }

  function Overlay(r: AddressRead, u: AddressUpdate): (m: Option<AddressRead>)
    ensures m.Some? ==> m.value.id == r.id && m.value.createdAt == r.createdAt && m.value.updatedAt == r.updatedAt
    ensures m.None? <==>
      u.street == Given(None) || u.city == Given(None) || u.state == Given(None)
      || u.postalCode == Given(None) || u.country == Given(None)
  {
    var fields :- OverlayFields(r.fields, u);
    Some(AddressRead(r.id, fields, r.createdAt, r.updatedAt))
  }

  /** `Dump(r)` after `dict.update` with the update's dump. */
  function Merged(r: AddressRead, u: AddressUpdate): (m: Dict)
    ensures m.Keys == ReadKeys
    ensures m[Id] == VUuid(r.id) && m[CreatedAt] == VTime(r.createdAt) && m[UpdatedAt] == VTime(r.updatedAt)
  {
    Dump(r) + DumpUpdate(u)
  }

  // Each field of the merged dict validates to the overlaid field.
  lemma MergedStreet(r: AddressRead, u: AddressUpdate)
    ensures Required(Merged(r, u), Street, AsStr) == OverlayRequired(r.fields.street, u.street)
  {
  }

  lemma MergedCity(r: AddressRead, u: AddressUpdate)
    ensures Required(Merged(r, u), City, AsStr) == OverlayRequired(r.fields.city, u.city)
  {
  }

  lemma MergedState(r: AddressRead, u: AddressUpdate)
    ensures Required(Merged(r, u), State, AsStr) == OverlayRequired(r.fields.state, u.state)
  {
  }

  lemma MergedPostalCode(r: AddressRead, u: AddressUpdate)
    ensures Required(Merged(r, u), PostalCode, AsStr) == OverlayRequired(r.fields.postalCode, u.postalCode)
  {
  }

  lemma MergedCountry(r: AddressRead, u: AddressUpdate)
    ensures Required(Merged(r, u), Country, AsStr) == OverlayRequired(r.fields.country, u.country)
  {
  }

  /** The id and the timestamps pass through the merge untouched. */
  lemma MergedStamps(r: AddressRead, u: AddressUpdate)
    ensures Required(Merged(r, u), Id, AsUuid) == Some(r.id)
    ensures Required(Merged(r, u), CreatedAt, AsTime) == Some(r.createdAt)
    ensures Required(Merged(r, u), UpdatedAt, AsTime) == Some(r.updatedAt)
  {
  }

  /** Rebuilding the merged dict validates exactly what the overlay accepts. */
  lemma BuildMerged(r: AddressRead, u: AddressUpdate)
    ensures Build(Merged(r, u)) == Overlay(r, u)
  {
    MergedStreet(r, u);
    MergedCity(r, u);
    MergedState(r, u);
    MergedPostalCode(r, u);
    MergedCountry(r, u);
    assert BuildFields(Merged(r, u)) == OverlayFields(r.fields, u);
    MergedStamps(r, u);
  }

  /** Dump the stored record, `dict.update` it with the explicitly set update
      fields (a right-biased map union), and rebuild the Read record. */
  function Merge(r: AddressRead, u: AddressUpdate): (m: Option<AddressRead>)
    ensures m.Some? ==> m.value.id == r.id && m.value.createdAt == r.createdAt && m.value.updatedAt == r.updatedAt
    ensures m.None? <==>
      u.street == Given(None) || u.city == Given(None) || u.state == Given(None)
      || u.postalCode == Given(None) || u.country == Given(None)
  {
    BuildMerged(r, u);
    Build(Merged(r, u))
  }

  lemma MergeIsOverlay(r: AddressRead, u: AddressUpdate)
    ensures Merge(r, u) == Overlay(r, u)
  {
    BuildMerged(r, u);
  }

  lemma MergeNoChanges(r: AddressRead)
    ensures Merge(r, NoChanges) == Some(r)
  {
    MergeIsOverlay(r, NoChanges);
  }

  lemma MergeIdempotent(r: AddressRead, u: AddressUpdate)
    requires Overlay(r, u).Some?
    ensures Merge(Merge(r, u).value, u) == Merge(r, u)
  {
    MergeIsOverlay(r, u);
    MergeIsOverlay(Merge(r, u).value, u);
    OverlayRequiredTwice(r.fields.street, u.street);
    OverlayRequiredTwice(r.fields.city, u.city);
    OverlayRequiredTwice(r.fields.state, u.state);
    OverlayRequiredTwice(r.fields.postalCode, u.postalCode);
    OverlayRequiredTwice(r.fields.country, u.country);
  }

  // ---------------------------------------------------------------------------
  // Handlers
  // ---------------------------------------------------------------------------

  /** `address.model_dump()`: the address fields and the client's id, and
      no timestamps. */
  function CreateDump(c: AddressCreate): (d: Dict)
    ensures d.Keys == CreateKeys
    ensures CreatedAt !in d && UpdatedAt !in d
  {
    FieldsDump(c.fields)[Id := VUuid(c.id)]
  }

  /** `AddressRead(**address.model_dump())`: the id is the payload's; the
      timestamps are successive clock readings `t0` and `t1`. */
  function NewAddress(c: AddressCreate, t0: Timestamp, t1: Timestamp): (r: AddressRead)
    ensures Build(CreateDump(c) + map[CreatedAt := VTime(t0), UpdatedAt := VTime(t1)]) == Some(r)
  {
    AddressRead(c.id, c.fields, t0, t1)
  }

  /** `POST /addresses`: refuses an id already stored. */
  function CreateAddress(s: AddressStore, c: AddressCreate, t0: Timestamp, t1: Timestamp)
    : (res: (AddressStore, Result<AddressRead>))
    requires Valid(s)
    ensures Valid(res.0)
    ensures c.id in s.entries <==> res.1 == Failure(DuplicateIdentity)
    ensures res.1.Failure? ==> res.0 == s
    ensures res.1.Success? ==>
      && res.1.value.id == c.id && res.1.value.fields == c.fields
      && res.1.value.createdAt == t0 && res.1.value.updatedAt == t1
      && res.0.order == s.order + [c.id]
      && res.0.entries == s.entries[c.id := res.1.value]
  {
    if c.id in s.entries then (s, Failure(DuplicateIdentity))
    else
      var r := NewAddress(c, t0, t1);
      (Put(s, c.id, r), Success(r))
  }

  /** A successful create appends the stored record to the listing and
      leaves every earlier record where it was. */
  lemma CreateAddressAppends(s: AddressStore, c: AddressCreate, t0: Timestamp, t1: Timestamp)
    requires Valid(s) && c.id !in s.entries
    ensures var (s', r) := CreateAddress(s, c, t0, t1);
      && r.Success?
      && Get(s', c.id) == r
      && Values(s') == Values(s) + [r.value]
  {
    ValuesAfterFreshPut(s, c.id, NewAddress(c, t0, t1));
  }

  predicate StreetIs(v: string, a: AddressRead) { a.fields.street == v }
  predicate CityIs(v: string, a: AddressRead) { a.fields.city == v }
  predicate StateIs(v: string, a: AddressRead) { a.fields.state == v }
  predicate PostalCodeIs(v: string, a: AddressRead) { a.fields.postalCode == v }
  predicate CountryIs(v: string, a: AddressRead) { a.fields.country == v }

  /** Each parameter given equals its field; an empty query admits every
      address. */
  predicate Matches(q: AddressQuery, a: AddressRead): (b: bool)
    ensures b <==>
      && (q.street.None? || q.street == Some(a.fields.street))
      && (q.city.None? || q.city == Some(a.fields.city))
      && (q.state.None? || q.state == Some(a.fields.state))
      && (q.postalCode.None? || q.postalCode == Some(a.fields.postalCode))
      && (q.country.None? || q.country == Some(a.fields.country))
    ensures q == AnyAddress ==> b
  {
    && Admits(q.street, StreetIs, a)
    && Admits(q.city, CityIs, a)
    && Admits(q.state, StateIs, a)
    && Admits(q.postalCode, PostalCodeIs, a)
    && Admits(q.country, CountryIs, a)
  }

  /** `GET /addresses`: one comprehension per parameter, in declaration order. */
  function ListAddresses(s: AddressStore, q: AddressQuery): (r: seq<AddressRead>)
    requires Valid(s)
    ensures forall i :: 0 <= i < |r| ==> r[i] in Values(s) && Matches(q, r[i])
    ensures forall i :: 0 <= i < |Values(s)| && Matches(q, Values(s)[i]) ==> Values(s)[i] in r
    ensures q == AnyAddress ==> r == Values(s)
  {
    var r1 := Narrow(Values(s), q.street, StreetIs);
    var r2 := Narrow(r1, q.city, CityIs);
    var r3 := Narrow(r2, q.state, StateIs);
    var r4 := Narrow(r3, q.postalCode, PostalCodeIs);
    Narrow(r4, q.country, CountryIs)
  }

  lemma ListAddressesIsOneFilter(s: AddressStore, q: AddressQuery)
    requires Valid(s)
    ensures ListAddresses(s, q) == Filter(Values(s), a => Matches(q, a))
    ensures IsSubsequence(ListAddresses(s, q), Values(s))
    ensures forall i :: 0 <= i < |Values(s)| ==>
      multiset(ListAddresses(s, q))[Values(s)[i]] == if Matches(q, Values(s)[i]) then multiset(Values(s))[Values(s)[i]] else 0
  {
    var vs := Values(s);
    var p1 := a => Admits(q.street, StreetIs, a);
    var p2 := a => p1(a) && Admits(q.city, CityIs, a);
    var p3 := a => p2(a) && Admits(q.state, StateIs, a);
    var p4 := a => p3(a) && Admits(q.postalCode, PostalCodeIs, a);
    NarrowIsFilter(vs, q.street, StreetIs);
    NarrowAfterFilter(vs, p1, q.city, CityIs, p2);
    NarrowAfterFilter(vs, p2, q.state, StateIs, p3);
    NarrowAfterFilter(vs, p3, q.postalCode, PostalCodeIs, p4);
    NarrowAfterFilter(vs, p4, q.country, CountryIs, a => Matches(q, a));
    FilterCounts(vs, a => Matches(q, a));
  }

  /** After a successful create, a listing is the earlier listing followed
      by the new address if it matches the query. */
  lemma ListAfterCreate(s: AddressStore, c: AddressCreate, t0: Timestamp, t1: Timestamp, q: AddressQuery)
    requires Valid(s) && c.id !in s.entries
    ensures var (s', r) := CreateAddress(s, c, t0, t1);
      r.Success? && ListAddresses(s', q) == ListAddresses(s, q) + (if Matches(q, r.value) then [r.value] else [])
  {
    var (s', r) := CreateAddress(s, c, t0, t1);
    CreateAddressAppends(s, c, t0, t1);
    ListAddressesIsOneFilter(s, q);
    ListAddressesIsOneFilter(s', q);
    FilterSnoc(Values(s), r.value, a => Matches(q, a));
  }

  /** `GET /addresses/{id}`. */
  function GetAddress(s: AddressStore, id: Uuid): (r: Result<AddressRead>)
    ensures r.Success? <==> id in s.entries
    ensures r.Success? ==> r.value == s.entries[id]
    ensures r.Failure? ==> r.error == NotFound
  {
    Get(s, id)
  }

  /** `PATCH /addresses/{id}`. */
  function PatchAddress(s: AddressStore, id: Uuid, u: AddressUpdate): (res: (AddressStore, Result<AddressRead>))
    requires Valid(s)
    ensures Valid(res.0)
    ensures id !in s.entries ==> res == (s, Failure(NotFound))
    ensures res.1.Failure? ==> res.0 == s
    ensures id in s.entries && Overlay(s.entries[id], u).Some? ==> res.1 == Success(Overlay(s.entries[id], u).value)
    ensures res.1.Success? ==>
      && id in s.entries
      && Overlay(s.entries[id], u) == Some(res.1.value)
      && res.0.order == s.order
      && res.0.entries == s.entries[id := res.1.value]
  {
    var res := Patch(s, id, a => Merge(a, u));
    if id in s.entries then MergeIsOverlay(s.entries[id], u); res else res
  }

  lemma PatchNoChanges(s: AddressStore, id: Uuid)
    requires Valid(s) && id in s.entries
    ensures PatchAddress(s, id, NoChanges) == (s, Success(s.entries[id]))
  {
    MergeNoChanges(s.entries[id]);
    PutSameValue(s, id);
  }

  function AddressId(a: AddressRead): Uuid { a.id }

  predicate StampsOrdered(a: AddressRead) { a.createdAt <= a.updatedAt }

  ghost predicate Consistent(s: AddressStore) {
    Valid(s) && KeyedBy(s, AddressId) && All(s, StampsOrdered)
  }

  lemma CreateKeepsConsistent(s: AddressStore, c: AddressCreate, t0: Timestamp, t1: Timestamp)
    requires Consistent(s) && t0 <= t1
    ensures Consistent(CreateAddress(s, c, t0, t1).0)
  {
    if c.id !in s.entries {
      PutKeepsInvariants(s, c.id, NewAddress(c, t0, t1), AddressId, StampsOrdered);
    }
  }

  lemma PatchKeepsConsistent(s: AddressStore, id: Uuid, u: AddressUpdate)
    requires Consistent(s)
    ensures Consistent(PatchAddress(s, id, u).0)
  {
    PatchKeepsInvariants(s, id, a => Merge(a, u), AddressId, StampsOrdered);
  }
}

=== FILE: calendar.dfy ===
/** Calendar dates and their canonical text form, `str(date)` in Python:
    four-digit year, two-digit month and day, separated by hyphens. */
module Calendar {
  import opened Outcomes

  datatype CalendarDate = CalendarDate(year: int, month: int, day: int)

  predicate IsLeapYear(y: int) {
    y % 4 == 0 && (y % 100 != 0 || y % 400 == 0)
  }

  function DaysInMonth(y: int, m: int): int {
    if m == 2 then (if IsLeapYear(y) then 29 else 28)
    else if m == 4 || m == 6 || m == 9 || m == 11 then 30
    else 31
  }

  /** The dates Python's `datetime.date` can hold (years 1 to 9999). */
  predicate IsValidDate(c: CalendarDate) {
    1 <= c.year <= 9999 && 1 <= c.month <= 12 && 1 <= c.day <= DaysInMonth(c.year, c.month)
  }

  type Date = c: CalendarDate | IsValidDate(c) witness CalendarDate(2000, 1, 1)

  function Pow10(n: nat): nat {
    if n == 0 then 1 else 10 * Pow10(n - 1)
  }

  predicate IsDigit(ch: char) {
    '0' <= ch <= '9'
  }

  predicate AllDigits(t: string) {
    forall i :: 0 <= i < |t| ==> IsDigit(t[i])
  }

  /** The last `w` decimal digits of `n`, zero-padded. */
  function Digits(n: nat, w: nat): (t: string)
    ensures |t| == w && AllDigits(t)
  {
    if w == 0 then [] else Digits(n / 10, w - 1) + [('0' as int + n % 10) as char]
  }

  /** The number a string of decimal digits denotes. */
  function DigitsValue(t: string): nat
    requires AllDigits(t)
  {
    if |t| == 0 then 0 else 10 * DigitsValue(t[..|t| - 1]) + (t[|t| - 1] as int - '0' as int)
  }

  lemma {:induction false} DigitsRoundTrip(n: nat, w: nat)
    requires n < Pow10(w)
    ensures DigitsValue(Digits(n, w)) == n
  {
    if w > 0 {
      var t := Digits(n, w);
      assert t[..|t| - 1] == Digits(n / 10, w - 1);
      DigitsRoundTrip(n / 10, w - 1);
    }
  }

  lemma {:induction false} DigitsValueRoundTrip(t: string)
    requires AllDigits(t)
    ensures DigitsValue(t) < Pow10(|t|)
    ensures Digits(DigitsValue(t), |t|) == t
  {
    if |t| > 0 {
      var init := t[..|t| - 1];
      DigitsValueRoundTrip(init);
      var n := DigitsValue(t);
      var d := t[|t| - 1] as int - '0' as int;
      assert n / 10 == DigitsValue(init) && n % 10 == d;
      assert t == init + [t[|t| - 1]];
    }
  }

  /** `str(d)` for a Python date: "YYYY-MM-DD". */
  function DateText(d: Date): (t: string)
    ensures |t| == 10 && t[4] == '-' && t[7] == '-'
    ensures AllDigits(t[..4]) && AllDigits(t[5..7]) && AllDigits(t[8..])
  {
    Digits(d.year, 4) + "-" + Digits(d.month, 2) + "-" + Digits(d.day, 2)
  }

  /** A hyphenated text of three digit groups is the canonical text of the
      date its groups denote. */
  lemma CanonicalFromGroups(t: string, c: Date)
    requires |t| == 10 && t[4] == '-' && t[7] == '-'
    requires AllDigits(t[..4]) && AllDigits(t[5..7]) && AllDigits(t[8..])
    requires c.year == DigitsValue(t[..4]) && c.month == DigitsValue(t[5..7]) && c.day == DigitsValue(t[8..])
    ensures DateText(c) == t
  {
    DigitsValueRoundTrip(t[..4]);
    DigitsValueRoundTrip(t[5..7]);
    DigitsValueRoundTrip(t[8..]);
    assert t == t[..4] + "-" + t[5..7] + "-" + t[8..];
  }

  /** Reads back exactly the canonical texts: the partner of DateText. */
  function ParseDate(t: string): (r: Option<Date>)
    ensures r.Some? ==> DateText(r.value) == t
  {
    if |t| == 10 && t[4] == '-' && t[7] == '-'
       && AllDigits(t[..4]) && AllDigits(t[5..7]) && AllDigits(t[8..])
    then
      var c := CalendarDate(DigitsValue(t[..4]), DigitsValue(t[5..7]), DigitsValue(t[8..]));
      if IsValidDate(c) then
        CanonicalFromGroups(t, c);
        Some(c)
      else None
    else None
  }

  lemma DateTextRoundTrip(d: Date)
    ensures ParseDate(DateText(d)) == Some(d)
  {
    var t := DateText(d);
    assert t[..4] == Digits(d.year, 4);
    assert t[5..7] == Digits(d.month, 2);
    assert t[8..] == Digits(d.day, 2);
    DigitsRoundTrip(d.year, 4);
    DigitsRoundTrip(d.month, 2);
    DigitsRoundTrip(d.day, 2);
  }

  /** Comparing canonical texts is the same as comparing dates. */
  lemma DateTextInjective(a: Date, b: Date)
    ensures DateText(a) == DateText(b) <==> a == b
  {
    if DateText(a) == DateText(b) {
      DateTextRoundTrip(a);
      DateTextRoundTrip(b);
    }
  }

  /** A text equals the canonical form of `d` exactly when it parses back to `d`. */
  lemma DateTextMatchesIffParses(d: Date, t: string)
    ensures DateText(d) == t <==> ParseDate(t) == Some(d)
  {
    DateTextRoundTrip(d);
  }
}

=== FILE: classes.dfy ===
/** The Class collection: the shapes of models/classes.py and the create /
    list / get / patch handlers of main.py over them.  `ClassRead` declares
    no `id` field, yet the create handler files the new record under
    `class_read.id`. */
module Classes {
  import opened Outcomes
  import opened Partial
  import opened Dumps
  import opened Filtering
  import opened Stores

  /** `ClassCreate`: `name` is required; `description` may be null and
      defaults to null. */
  datatype ClassCreate = ClassCreate(name: string, description: Option<string>)

  /** `ClassUpdate`: both fields optional and unset by default. */
  datatype ClassUpdate = ClassUpdate(name: Presence<Option<string>>, description: Presence<Option<string>>)

  const NoChanges := ClassUpdate(Unset, Unset)

  /** `ClassRead`: the domain fields and two UTC timestamps, and no id. */
  datatype ClassRead = ClassRead(name: string, description: Option<string>, createdAt: Timestamp, updatedAt: Timestamp)

  datatype ClassQuery = ClassQuery(name: Option<string>, description: Option<string>)

  const AnyClass := ClassQuery(None, None)

  /** The fields of `ClassCreate`, and those of `ClassRead`. */
  const CreateKeys := {Name, Description}
  const ReadKeys := CreateKeys + {CreatedAt, UpdatedAt}

  type ClassStore = Store<ClassRead>

  // ---------------------------------------------------------------------------
  // Payload validation and dumps
  // ---------------------------------------------------------------------------

  /** Validating a request body as a `ClassCreate`. */
  function ParseCreate(d: Dict): (r: Option<ClassCreate>)
    ensures Name !in d ==> r.None?
    ensures r.Some? <==>
      && Name in d && d[Name].VStr?
      && (Description !in d || d[Description].VNull? || d[Description].VStr?)
    ensures r.Some? ==> d[Name] == VStr(r.value.name)
    ensures r.Some? && (Description !in d || d[Description].VNull?) ==> r.value.description.None?
    ensures r.Some? && Description in d && d[Description].VStr? ==> r.value.description == Some(d[Description].s)
  {
    var name :- Required(d, Name, AsStr);
    var description :- Nullable(d, Description, AsStr);
    Some(ClassCreate(name, description))
  }

  /** Validating a request body as a `ClassUpdate`. */
  function ParseUpdate(d: Dict): (r: Option<ClassUpdate>)
    ensures d == map[] ==> r == Some(NoChanges)
    ensures r.Some? ==>
      && (r.value.name.Unset? <==> Name !in d)
      && (r.value.description.Unset? <==> Description !in d)
  {
    var name :- UpdateField(d, Name, AsStr);
    var description :- UpdateField(d, Description, AsStr);
    Some(ClassUpdate(name, description))
  }

  /** `cls.model_dump()`: an absent description dumps as null. */
  function CreateDump(c: ClassCreate): (d: Dict)
    ensures d.Keys == CreateKeys
    ensures Id !in d && CreatedAt !in d && UpdatedAt !in d
  {
    map[Name := VStr(c.name), Description := NullableValue(c.description, StrValue)]
  }

  /** A payload read back from its own dump is the same payload. */
  lemma CreateRoundTrip(c: ClassCreate)
    ensures ParseCreate(CreateDump(c)) == Some(c)
  {
    var d := CreateDump(c);
    assert Required(d, Name, AsStr) == Some(c.name);
    assert Nullable(d, Description, AsStr) == Some(c.description);
  }

  const UpdateKeys := CreateKeys

  /** The dump of one field of an update. */
  function Slot(u: ClassUpdate, k: Key): Presence<Value> {
    match k
    case Name => Dumped(u.name, StrValue)
    case Description => Dumped(u.description, StrValue)
    case _ => Unset
  }

  /** `update.model_dump(exclude_unset=True)`. */
  function DumpUpdate(u: ClassUpdate): (d: Dict)
    ensures d.Keys <= UpdateKeys
    ensures CreatedAt !in d && UpdatedAt !in d
    ensures d == map[] <==> u == NoChanges
  {
    var d := map k | k in UpdateKeys && Slot(u, k).Given? :: Slot(u, k).value;
    assert u.name.Given? ==> Name in d;
    assert u.description.Given? ==> Description in d;
    d
  }

  /** An update read back from its own dump is the same update. */
  lemma UpdateRoundTrip(u: ClassUpdate)
    ensures ParseUpdate(DumpUpdate(u)) == Some(u)
  {
    var d := DumpUpdate(u);
    assert UpdateField(d, Name, AsStr) == Some(u.name);
    assert UpdateField(d, Description, AsStr) == Some(u.description);
  }

  /** `read.model_dump()`: there is no `id` key, and a missing description
      dumps as null. */
  function Dump(r: ClassRead): (d: Dict)
    ensures d.Keys == ReadKeys
    ensures Id !in d
  {
    map[
      Name := VStr(r.name),
      Description := NullableValue(r.description, StrValue),
      CreatedAt := VTime(r.createdAt),
      UpdatedAt := VTime(r.updatedAt)]
  }

  /** `ClassRead(**d)` for a dict that carries both timestamps: a missing,
      null or ill-typed name or timestamp fails validation, a missing or
      null description reads as null, and every field comes from the dict. */
  function Build(d: Dict): (r: Option<ClassRead>)
    ensures r.Some? <==>
      && Name in d && d[Name].VStr?
      && (Description !in d || d[Description].VNull? || d[Description].VStr?)
      && CreatedAt in d && d[CreatedAt].VTime?
      && UpdatedAt in d && d[UpdatedAt].VTime?
    ensures r.Some? ==>
      && d[Name] == VStr(r.value.name)
      && r.value.description == (if Description in d && d[Description].VStr? then Some(d[Description].s) else None)
      && d[CreatedAt] == VTime(r.value.createdAt)
      && d[UpdatedAt] == VTime(r.value.updatedAt)
  {
    var name :- Required(d, Name, AsStr);
    var description :- Nullable(d, Description, AsStr);
    var createdAt :- Required(d, CreatedAt, AsTime);
    var updatedAt :- Required(d, UpdatedAt, AsTime);
    Some(ClassRead(name, description, createdAt, updatedAt))
  }

  lemma BuildDump(r: ClassRead)
    ensures Build(Dump(r)) == Some(r)
  {
  }

  // ---------------------------------------------------------------------------
  // The partial-update merge
  // ---------------------------------------------------------------------------

  /** Field-by-field reference for the merge.  Only a null `name` is
      refused: a null `description` is a legal value. */
  function Overlay(r: ClassRead, u: ClassUpdate): (m: Option<ClassRead>)
    ensures m.Some? ==> m.value.createdAt == r.createdAt && m.value.updatedAt == r.updatedAt
    ensures m.None? <==> u.name == Given(None)
  {
    var name :- OverlayRequired(r.name, u.name);
    var description := OverlayNullable(r.description, u.description);
    Some(ClassRead(name, description, r.createdAt, r.updatedAt))
  }

  /** `Dump(r)` after `dict.update` with the update's dump. */
  function Merged(r: ClassRead, u: ClassUpdate): (m: Dict)
    ensures m.Keys == ReadKeys
    ensures m[CreatedAt] == VTime(r.createdAt) && m[UpdatedAt] == VTime(r.updatedAt)
  {
    Dump(r) + DumpUpdate(u)
  }

  // Each field of the merged dict validates to the overlaid field.
  lemma MergedName(r: ClassRead, u: ClassUpdate)
    ensures Required(Merged(r, u), Name, AsStr) == OverlayRequired(r.name, u.name)
  {
  }

  lemma MergedDescription(r: ClassRead, u: ClassUpdate)
    ensures Nullable(Merged(r, u), Description, AsStr) == Some(OverlayNullable(r.description, u.description))
  {
  }

  /** The timestamps pass through the merge untouched. */
  lemma MergedStamps(r: ClassRead, u: ClassUpdate)
    ensures Required(Merged(r, u), CreatedAt, AsTime) == Some(r.createdAt)
    ensures Required(Merged(r, u), UpdatedAt, AsTime) == Some(r.updatedAt)
  {
  }

  /** Rebuilding the merged dict validates exactly what the overlay accepts. */
  lemma BuildMerged(r: ClassRead, u: ClassUpdate)
    ensures Build(Merged(r, u)) == Overlay(r, u)
  {
    MergedName(r, u);
    MergedDescription(r, u);
    MergedStamps(r, u);
  }

  /** Dump, `dict.update` with the explicitly set fields, rebuild. */
  function Merge(r: ClassRead, u: ClassUpdate): (m: Option<ClassRead>)
    ensures m.Some? ==> m.value.createdAt == r.createdAt && m.value.updatedAt == r.updatedAt
    ensures m.None? <==> u.name == Given(None)
  {
    BuildMerged(r, u);
    Build(Merged(r, u))
  }

  lemma MergeIsOverlay(r: ClassRead, u: ClassUpdate)
    ensures Merge(r, u) == Overlay(r, u)
  {
    BuildMerged(r, u);
  }

  /** Unset fields keep their stored values; set ones take the given value,
      and an explicit null description clears the description. */
  lemma MergeReplacesExactlyGiven(r: ClassRead, u: ClassUpdate)
    requires Merge(r, u).Some?
    ensures var m := Merge(r, u).value;
      && (if u.name.Given? then u.name.value == Some(m.name) else m.name == r.name)
      && (if u.description.Given? then m.description == u.description.value else m.description == r.description)
      && m.createdAt == r.createdAt && m.updatedAt == r.updatedAt
  {
    MergeIsOverlay(r, u);
  }

  lemma MergeNoChanges(r: ClassRead)
    ensures Merge(r, NoChanges) == Some(r)
  {
    MergeIsOverlay(r, NoChanges);
  }

  lemma MergeIdempotent(r: ClassRead, u: ClassUpdate)
    requires Overlay(r, u).Some?
    ensures Merge(Merge(r, u).value, u) == Merge(r, u)
  {
    MergeIsOverlay(r, u);
    MergeIsOverlay(Merge(r, u).value, u);
    OverlayRequiredTwice(r.name, u.name);
  }

  // ---------------------------------------------------------------------------
  // Handlers
  // ---------------------------------------------------------------------------

  /** `ClassRead(**cls.model_dump())`, with the two timestamps taken from
      successive clock readings `t0` and `t1`. */
  function NewClass(c: ClassCreate, t0: Timestamp, t1: Timestamp): (r: ClassRead)
    ensures Build(CreateDump(c) + map[CreatedAt := VTime(t0), UpdatedAt := VTime(t1)]) == Some(r)
  {
    ClassRead(c.name, c.description, t0, t1)
  }

  /** `POST /classes` as written: validating the record (`NewClass`) always
      succeeds, and only the read of `class_read.id` fails, because
      `ClassRead` has no such attribute; so nothing is stored, whatever the
      payload and clock readings. */
  function CreateClassAsWritten(s: ClassStore, c: ClassCreate, t0: Timestamp, t1: Timestamp)
    : (res: (ClassStore, Result<ClassRead>))
    ensures res.0 == s && res.1.Failure?
  {
    (s, Failure(MissingIdentity))
  }

  /** `POST /classes` as evidently intended: the record is filed under a
      generated key `key`, supplied here because the record has none. */
  function CreateClass(s: ClassStore, c: ClassCreate, key: Uuid, t0: Timestamp, t1: Timestamp)
    : (res: (ClassStore, ClassRead))
    requires Valid(s)
    ensures Valid(res.0)
    ensures res.1.name == c.name && res.1.description == c.description
    ensures res.1.createdAt == t0 && res.1.updatedAt == t1
    ensures res.0.entries == s.entries[key := res.1]
  {
    var r := NewClass(c, t0, t1);
    (Put(s, key, r), r)
  }

  lemma CreateFreshClass(s: ClassStore, c: ClassCreate, key: Uuid, t0: Timestamp, t1: Timestamp)
    requires Valid(s) && key !in s.entries
    ensures var (s', r) := CreateClass(s, c, key, t0, t1);
      && s'.order == s.order + [key]
      && s'.entries.Keys == s.entries.Keys + {key}
      && (forall k :: k in s.entries ==> s'.entries[k] == s.entries[k])
      && s'.entries[key] == r
      && Values(s') == Values(s) + [r]
  {
    ValuesAfterFreshPut(s, key, NewClass(c, t0, t1));
  }

  predicate NameIs(v: string, c: ClassRead) { c.name == v }
  /** A stored null description never equals a query string. */
  predicate DescriptionIs(v: string, c: ClassRead) { c.description == Some(v) }

  /** Each parameter given equals its field, so a class whose description
      is null is listed only when `description` is not given. */
  predicate Matches(q: ClassQuery, c: ClassRead): (b: bool)
    ensures b <==>
      && (q.name.None? || q.name == Some(c.name))
      && (q.description.None? || q.description == c.description)
    ensures q == AnyClass ==> b
  {
    Admits(q.name, NameIs, c) && Admits(q.description, DescriptionIs, c)
  }

  /** `GET /classes`. */
  function ListClasses(s: ClassStore, q: ClassQuery): (r: seq<ClassRead>)
    requires Valid(s)
    ensures forall i :: 0 <= i < |r| ==> r[i] in Values(s) && Matches(q, r[i])
    ensures forall i :: 0 <= i < |Values(s)| && Matches(q, Values(s)[i]) ==> Values(s)[i] in r
    ensures q == AnyClass ==> r == Values(s)
  {
    Narrow(Narrow(Values(s), q.name, NameIs), q.description, DescriptionIs)
  }

  lemma ListClassesIsOneFilter(s: ClassStore, q: ClassQuery)
    requires Valid(s)
    ensures ListClasses(s, q) == Filter(Values(s), c => Matches(q, c))
    ensures ListClasses(s, q) == Narrow(Narrow(Values(s), q.description, DescriptionIs), q.name, NameIs)
    ensures IsSubsequence(ListClasses(s, q), Values(s))
    ensures forall i :: 0 <= i < |Values(s)| ==>
      multiset(ListClasses(s, q))[Values(s)[i]] == if Matches(q, Values(s)[i]) then multiset(Values(s))[Values(s)[i]] else 0
  {
    var vs := Values(s);
    NarrowIsFilter(vs, q.name, NameIs);
    NarrowIsFilter(Narrow(vs, q.name, NameIs), q.description, DescriptionIs);
    FilterFilter(vs, c => Admits(q.name, NameIs, c), c => Admits(q.description, DescriptionIs, c), c => Matches(q, c));
    NarrowCommutes(vs, q.name, NameIs, q.description, DescriptionIs);
    FilterCounts(vs, c => Matches(q, c));
  }

  /** `GET /classes/{id}`. */
  function GetClass(s: ClassStore, key: Uuid): (r: Result<ClassRead>)
    ensures r.Success? <==> key in s.entries
    ensures r.Success? ==> r.value == s.entries[key]
    ensures r.Failure? ==> r.error == NotFound
  {
    Get(s, key)
  }

  /** `PATCH /classes/{id}`. */
  function PatchClass(s: ClassStore, key: Uuid, u: ClassUpdate): (res: (ClassStore, Result<ClassRead>))
    requires Valid(s)
    ensures Valid(res.0)
    ensures key !in s.entries ==> res == (s, Failure(NotFound))
    ensures key in s.entries && u.name == Given(None) ==> res == (s, Failure(InvalidRecord))
    ensures res.1.Failure? ==> res.0 == s
    ensures key in s.entries && Overlay(s.entries[key], u).Some? ==> res.1 == Success(Overlay(s.entries[key], u).value)
    ensures res.1.Success? ==>
      && key in s.entries
      && Overlay(s.entries[key], u) == Some(res.1.value)
      && res.0.order == s.order
      && res.0.entries == s.entries[key := res.1.value]
  {
    var res := Patch(s, key, c => Merge(c, u));
    if key in s.entries then MergeIsOverlay(s.entries[key], u); res else res
  }

  lemma PatchNoChanges(s: ClassStore, key: Uuid)
    requires Valid(s) && key in s.entries
    ensures PatchClass(s, key, NoChanges) == (s, Success(s.entries[key]))
  {
    MergeNoChanges(s.entries[key]);
    PutSameValue(s, key);
  }

  predicate StampsOrdered(c: ClassRead) { c.createdAt <= c.updatedAt }

  lemma CreateKeepsStampsOrdered(s: ClassStore, c: ClassCreate, key: Uuid, t0: Timestamp, t1: Timestamp)
    requires Valid(s) && All(s, StampsOrdered) && t0 <= t1
    ensures All(CreateClass(s, c, key, t0, t1).0, StampsOrdered)
  {
  }

  lemma PatchKeepsStampsOrdered(s: ClassStore, key: Uuid, u: ClassUpdate)
    requires Valid(s) && All(s, StampsOrdered)
    ensures All(PatchClass(s, key, u).0, StampsOrdered)
  {
  }

  // ---------------------------------------------------------------------------
  // Consequence of the as-written create handler
  // ---------------------------------------------------------------------------

  datatype ClassCall =
    | CreateCall(c: ClassCreate, t0: Timestamp, t1: Timestamp)
    | PatchCall(key: Uuid, u: ClassUpdate)

  /** The store after a run of create and patch requests, with the create
      handler as written. */
  function RunAsWritten(s: ClassStore, calls: seq<ClassCall>): ClassStore
    requires Valid(s)
    decreases |calls|
  {
    if |calls| == 0 then s
    else
      var s' := match calls[0]
        case CreateCall(c, t0, t1) => CreateClassAsWritten(s, c, t0, t1).0
        case PatchCall(key, u) => PatchClass(s, key, u).0;
      assert Valid(s');
      RunAsWritten(s', calls[1..])
  }

  /** Starting from the empty dict, no run of requests ever stores a class,
      so every lookup is NotFound and every listing is empty. */
  lemma {:induction false} ClassesNeverStoredAsWritten(calls: seq<ClassCall>, key: Uuid, q: ClassQuery)
    ensures RunAsWritten(Empty(), calls) == Empty()
    ensures GetClass(RunAsWritten(Empty(), calls), key) == Failure(NotFound)
    ensures ListClasses(RunAsWritten(Empty(), calls), q) == []
    decreases |calls|
  {
    if |calls| > 0 {
      ClassesNeverStoredAsWritten(calls[1..], key, q);
    }
  }
}

=== FILE: dumps.dfy ===
/** The Python dicts that `model_dump()` produces and that a Read shape is
    rebuilt from (`Read(**d)`), with the per-type validation pydantic applies
    when it rebuilds one.  Unknown keys are ignored, as pydantic does by
    default. */
module Dumps {
  import opened Outcomes
  import opened Partial
  import opened Calendar

  /** The field names of every shape, so a dict key is one of these rather
      than an arbitrary string. */
  datatype Key =
    | Username | NumberId | Amount
    | Name | Description
    | Street | City | State | PostalCode | Country
    | Uni | FirstName | LastName | Email | Phone | BirthDate | AddressList
    | Id | CreatedAt | UpdatedAt

  datatype Value =
    | VNull
    | VStr(s: string)
    | VInt(i: int)
    | VFloat(f: real)
    | VUuid(u: Uuid)
    | VTime(t: Timestamp)
    | VDate(d: Date)
    | VList(items: seq<Value>)
    | VObject(fields: map<Key, Value>)

  type Dict = map<Key, Value>

  function AsStr(v: Value): Option<string> {
    if v.VStr? then Some(v.s) else None
  }

  function AsInt(v: Value): Option<int> {
    if v.VInt? then Some(v.i) else None
  }

  /** A `float` field also accepts an `int`, which it converts. */
  function AsFloat(v: Value): Option<real> {
    if v.VFloat? then Some(v.f) else if v.VInt? then Some(v.i as real) else None
  }

  function AsUuid(v: Value): Option<Uuid> {
    if v.VUuid? then Some(v.u) else None
  }

  function AsTime(v: Value): Option<Timestamp> {
    if v.VTime? then Some(v.t) else None
  }

  function AsDate(v: Value): Option<Date> {
    if v.VDate? then Some(v.d) else None
  }

  /** A required field: missing, null or ill-typed fails validation. */
  function Required<T>(d: Dict, key: Key, decode: Value -> Option<T>): (r: Option<T>)
    ensures key !in d ==> r.None?
  {
    if key in d then decode(d[key]) else None
  }

  /** An `Optional[T]` field with default None: missing or null reads as null. */
  function Nullable<T>(d: Dict, key: Key, decode: Value -> Option<T>): (r: Option<Option<T>>)
    ensures key !in d ==> r == Some(None)
  {
    if key !in d || d[key].VNull? then Some(None)
    else match decode(d[key])
      case None => None
      case Some(x) => Some(Some(x))
  }

  /** A field of an Update shape: a missing key leaves the field unset,
      a null sets it to null. */
  function UpdateField<T>(d: Dict, key: Key, decode: Value -> Option<T>): (r: Option<Presence<Option<T>>>)
    ensures key !in d <==> r == Some(Unset)
  {
    if key !in d then Some(Unset)
    else if d[key].VNull? then Some(Given(None))
    else match decode(d[key])
      case None => None
      case Some(x) => Some(Given(Some(x)))
  }

  function StrValue(x: string): Value { VStr(x) }
  function IntValue(x: int): Value { VInt(x) }
  function FloatValue(x: real): Value { VFloat(x) }
  function DateValue(x: Date): Value { VDate(x) }

  function NullableValue<T>(o: Option<T>, encode: T -> Value): Value {
    match o
    case None => VNull
    case Some(x) => encode(x)
  }

  /** What `model_dump(exclude_unset=True)` emits for one field: nothing
      for an unset field, null for a field set to null. */
  function Dumped<T>(p: Presence<Option<T>>, encode: T -> Value): (r: Presence<Value>)
    ensures r.Given? <==> p.Given?
  {
    match p
    case Unset => Unset
    case Given(o) => Given(NullableValue(o, encode))
  }
}

=== FILE: filtering.dfy ===
/** List comprehensions `[x for x in xs if p(x)]` and the optional
    exact-match predicates the list handlers chain together. */
module Filtering {
  import opened Outcomes

  /** `b` contains the elements of `a` in the same relative order. */
  ghost predicate IsSubsequence<T>(a: seq<T>, b: seq<T>)
    decreases |b|
  {
    if |a| == 0 then true
    else if |b| == 0 then false
    else (a[0] == b[0] && IsSubsequence(a[1..], b[1..])) || IsSubsequence(a, b[1..])
  }

  /** `[x for x in xs if p(x)]`. */
  function Filter<T>(xs: seq<T>, p: T -> bool): (r: seq<T>)
    ensures |r| <= |xs|
    ensures forall i :: 0 <= i < |r| ==> r[i] in xs && p(r[i])
    ensures forall i :: 0 <= i < |xs| && p(xs[i]) ==> xs[i] in r
    ensures IsSubsequence(r, xs)
    decreases |xs|
  {
    if |xs| == 0 then []
    else if p(xs[0]) then [xs[0]] + Filter(xs[1..], p)
    else Filter(xs[1..], p)
  }

  /** A comprehension keeps every passing element as many times as it
      occurs, and no failing one. */
  lemma {:induction false} FilterCounts<T>(xs: seq<T>, p: T -> bool)
    ensures forall x :: multiset(Filter(xs, p))[x] == if p(x) then multiset(xs)[x] else 0
    decreases |xs|
  {
    if |xs| > 0 {
      FilterCounts(xs[1..], p);
      assert xs == [xs[0]] + xs[1..];
      assert multiset(xs) == multiset([xs[0]]) + multiset(xs[1..]);
      if p(xs[0]) {
        assert multiset(Filter(xs, p)) == multiset([xs[0]]) + multiset(Filter(xs[1..], p));
      }
    }
  }

  lemma {:induction false} FilterKeepsAll<T>(xs: seq<T>, p: T -> bool)
    requires forall i :: 0 <= i < |xs| ==> p(xs[i])
    ensures Filter(xs, p) == xs
    decreases |xs|
  {
    if |xs| > 0 {
      assert p(xs[0]);
      FilterKeepsAll(xs[1..], p);
      assert xs == [xs[0]] + xs[1..];
    }
  }

  /** Filtering depends only on which elements the predicate accepts. */
  lemma {:induction false} FilterSamePredicate<T>(xs: seq<T>, p: T -> bool, q: T -> bool)
    requires forall x :: x in xs ==> p(x) == q(x)
    ensures Filter(xs, p) == Filter(xs, q)
    decreases |xs|
  {
    if |xs| > 0 {
      assert xs[0] in xs;
      forall x | x in xs[1..] ensures p(x) == q(x) {
        assert x in xs;
      }
      FilterSamePredicate(xs[1..], p, q);
    }
  }

  /** Two successive comprehensions are one comprehension on the conjunction. */
  lemma {:induction false} FilterFilter<T>(xs: seq<T>, p: T -> bool, q: T -> bool, pq: T -> bool)
    requires forall x :: pq(x) == (p(x) && q(x))
    ensures Filter(Filter(xs, p), q) == Filter(xs, pq)
    decreases |xs|
  {
    if |xs| > 0 {
      FilterFilter(xs[1..], p, q, pq);
    }
  }

  /** The order in which two comprehensions are applied does not matter. */
  lemma {:induction false} FilterCommutes<T>(xs: seq<T>, p: T -> bool, q: T -> bool)
    ensures Filter(Filter(xs, p), q) == Filter(Filter(xs, q), p)
    decreases |xs|
  {
    if |xs| > 0 {
      FilterCommutes(xs[1..], p, q);
    }
  }

  lemma {:induction false} FilterAppend<T>(a: seq<T>, b: seq<T>, p: T -> bool)
    ensures Filter(a + b, p) == Filter(a, p) + Filter(b, p)
    decreases |a|
  {
    if |a| > 0 {
      assert (a + b)[1..] == a[1..] + b;
      FilterAppend(a[1..], b, p);
    } else {
      assert a + b == b;
    }
  }

  /** Appending one element extends the comprehension by that element
      exactly when it passes. */
  lemma FilterSnoc<T>(xs: seq<T>, x: T, p: T -> bool)
    ensures Filter(xs + [x], p) == Filter(xs, p) + (if p(x) then [x] else [])
  {
    FilterAppend(xs, [x], p);
    assert [x][1..] == [];
    assert Filter([x], p) == (if p(x) then [x] else []);
  }

  /** An unset query parameter imposes nothing; a set one must pass `test`. */
  /** Python's `any(p(x) for x in xs)`: scans left to right and stops at
      the first element that satisfies `p`. */
  function Any<T>(xs: seq<T>, p: T -> bool): (r: bool)
    ensures r <==> exists i :: 0 <= i < |xs| && p(xs[i])
    decreases |xs|
  {
    if |xs| == 0 then false
    else if p(xs[0]) then true
    else
      assert forall i :: 1 <= i < |xs| ==> xs[i] == xs[1..][i - 1];
      Any(xs[1..], p)
  }

  predicate Admits<K, T>(q: Option<K>, test: (K, T) -> bool, x: T) {
    q.None? || test(q.value, x)
  }

  /** `if q is not None: xs = [x for x in xs if test(q, x)]`. */
  function Narrow<K, T>(xs: seq<T>, q: Option<K>, test: (K, T) -> bool): (r: seq<T>)
    ensures forall i :: 0 <= i < |r| ==> r[i] in xs && Admits(q, test, r[i])
    ensures forall i :: 0 <= i < |xs| && Admits(q, test, xs[i]) ==> xs[i] in r
    ensures q.None? ==> r == xs
    ensures forall i :: 0 <= i < |xs| ==> multiset(r)[xs[i]] == if Admits(q, test, xs[i]) then multiset(xs)[xs[i]] else 0
  {
    if q.None? then xs
    else
      FilterCounts(xs, x => test(q.value, x));
      Filter(xs, x => test(q.value, x))
  }

  /** A guarded comprehension is a comprehension on `Admits`. */
  lemma NarrowIsFilter<K, T>(xs: seq<T>, q: Option<K>, test: (K, T) -> bool)
    ensures Narrow(xs, q, test) == Filter(xs, x => Admits(q, test, x))
  {
    if q.None? {
      FilterKeepsAll(xs, x => Admits(q, test, x));
    } else {
      FilterSamePredicate(xs, x => test(q.value, x), x => Admits(q, test, x));
    }
  }

  /** A guarded comprehension after a comprehension is one comprehension. */
  lemma NarrowAfterFilter<K, T>(xs: seq<T>, p: T -> bool, q: Option<K>, test: (K, T) -> bool, pq: T -> bool)
    requires forall x :: pq(x) == (p(x) && Admits(q, test, x))
    ensures Narrow(Filter(xs, p), q, test) == Filter(xs, pq)
  {
    NarrowIsFilter(Filter(xs, p), q, test);
    FilterFilter(xs, p, x => Admits(q, test, x), pq);
  }

  /** Two guarded comprehensions commute. */
  lemma NarrowCommutes<K1, K2, T>(xs: seq<T>, q1: Option<K1>, t1: (K1, T) -> bool,
                                  q2: Option<K2>, t2: (K2, T) -> bool)
    ensures Narrow(Narrow(xs, q1, t1), q2, t2) == Narrow(Narrow(xs, q2, t2), q1, t1)
  {
    var p1 := x => Admits(q1, t1, x);
    var p2 := x => Admits(q2, t2, x);
    NarrowIsFilter(xs, q1, t1);
    NarrowIsFilter(xs, q2, t2);
    NarrowIsFilter(Narrow(xs, q1, t1), q2, t2);
    NarrowIsFilter(Narrow(xs, q2, t2), q1, t1);
    FilterCommutes(xs, p1, p2);
  }
}

=== FILE: outcomes.dfy ===
/** Failure-carrying values shared by every handler of the service, and the
    two scalar types the stores are keyed and stamped with. */
module Outcomes {

  /** A value that may be absent; also Python's `Optional[T]` (None is null). */
  datatype Option<+T> = None | Some(value: T) {
    predicate IsFailure() {
      None?
    }

    function PropagateFailure<U>(): Option<U>
      requires None?
    {
      None
    }

    function Extract(): T
      requires Some?
    {
      value
    }
  }

  /** The error conditions a handler can end in.
      - NotFound: lookup or patch of an absent key (HTTP 404).
      - DuplicateIdentity: creating an Address whose id is already stored (HTTP 400).
      - InvalidRecord: a merged dict that the Read shape refuses to validate.
      - MissingIdentity: reading an `id` attribute that the Read shape does not declare. */
  datatype Error = NotFound | DuplicateIdentity | InvalidRecord | MissingIdentity

  datatype Result<+T> = Success(value: T) | Failure(error: Error)

  /** A UUID, abstracted to its numeric value. */
  type Uuid = nat

  /** A UTC instant, abstracted to a count of clock ticks. */
  type Timestamp = int
}

=== FILE: partial.dfy ===
/** Presence-aware fields of the Update shapes.  A field of an Update payload
    is either left unset (it is absent from `model_dump(exclude_unset=True)`)
    or explicitly given a value, and that value may itself be null. */
module Partial {
  import opened Outcomes

  datatype Presence<+T> = Unset | Given(value: T)

  /** The stored value of a nullable field after a patch: an explicit null is
      an override like any other value. */
  function OverlayNullable<T>(stored: Option<T>, p: Presence<Option<T>>): Option<T>
  {
    match p
    case Unset => stored
    case Given(v) => v
  }

  /** The stored value of a required field after a patch, or None when the
      patch sets it to null, which the Read shape cannot hold. */
  function OverlayRequired<T>(stored: T, p: Presence<Option<T>>): Option<T>
  {
    match p
    case Unset => Some(stored)
    case Given(v) => v
  }

  /** Re-applying a field update to its own result changes nothing. */
  lemma OverlayRequiredTwice<T>(stored: T, p: Presence<Option<T>>)
    requires OverlayRequired(stored, p).Some?
    ensures OverlayRequired(OverlayRequired(stored, p).value, p) == OverlayRequired(stored, p)
  {
  }
}

=== FILE: persons.dfy ===
/** The Person collection.  A person embeds an ordered list of addresses,
    which the list handler can filter on by city or country, and a birth
    date, which it filters on by comparing the date's text form. */
module Persons {
  import opened Outcomes
  import opened Partial
  import opened Calendar
  import opened Dumps
  import opened Filtering
  import opened Stores
  import opened Addresses

  /** `PersonCreate`: the domain fields of a person. */
  datatype PersonCreate = PersonCreate(
    uni: string, firstName: string, lastName: string, email: string, phone: string,
    birthDate: Date, addresses: seq<AddressFields>)

  /** `PersonUpdate`: every domain field optional and unset by default. */
  datatype PersonUpdate = PersonUpdate(
    uni: Presence<Option<string>>,
    firstName: Presence<Option<string>>,
    lastName: Presence<Option<string>>,
    email: Presence<Option<string>>,
    phone: Presence<Option<string>>,
    birthDate: Presence<Option<Date>>,
    addresses: Presence<Option<seq<AddressFields>>>)

  const NoChanges := PersonUpdate(Unset, Unset, Unset, Unset, Unset, Unset, Unset)

  datatype PersonRead = PersonRead(
    id: Uuid,
    uni: string, firstName: string, lastName: string, email: string, phone: string,
    birthDate: Date, addresses: seq<AddressFields>,
    createdAt: Timestamp, updatedAt: Timestamp)

  /** The query parameters of `GET /persons`, all text. */
  datatype PersonQuery = PersonQuery(
    uni: Option<string>, firstName: Option<string>, lastName: Option<string>,
    email: Option<string>, phone: Option<string>, birthDate: Option<string>,
    city: Option<string>, country: Option<string>)

  const AnyPerson := PersonQuery(None, None, None, None, None, None, None, None)

  type PersonStore = Store<PersonRead>

  /** The fields of `PersonCreate`, and those of `PersonRead`. */
  const CreateKeys := {Uni, FirstName, LastName, Email, Phone, BirthDate, AddressList}
  const ReadKeys := CreateKeys + {Id, CreatedAt, UpdatedAt}

  // ---------------------------------------------------------------------------
  // Dumps
  // ---------------------------------------------------------------------------

  /** The embedded addresses dump to a list of nested dicts. */
  function EncodeAddresses(addrs: seq<AddressFields>): (vs: seq<Value>)
    ensures |vs| == |addrs|
    decreases |addrs|
  {
    if |addrs| == 0 then [] else [FieldsValue(addrs[0])] + EncodeAddresses(addrs[1..])
  }

  function DecodeAddresses(vs: seq<Value>): Option<seq<AddressFields>>
    decreases |vs|
  {
    if |vs| == 0 then Some([])
    else
      var first :- AsFields(vs[0]);
      var rest :- DecodeAddresses(vs[1..]);
      Some([first] + rest)
  }

  lemma {:induction false} AddressesRoundTrip(addrs: seq<AddressFields>)
    ensures DecodeAddresses(EncodeAddresses(addrs)) == Some(addrs)
    decreases |addrs|
  {
    if |addrs| > 0 {
      AddressesRoundTrip(addrs[1..]);
      assert EncodeAddresses(addrs)[1..] == EncodeAddresses(addrs[1..]);
      assert [addrs[0]] + addrs[1..] == addrs;
    }
  }

  function AddressesValue(addrs: seq<AddressFields>): Value {
    VList(EncodeAddresses(addrs))
  }

  function AsAddresses(v: Value): Option<seq<AddressFields>> {
    if v.VList? then DecodeAddresses(v.items) else None
  }

  lemma AddressesValueRoundTrip(addrs: seq<AddressFields>)
    ensures AsAddresses(AddressesValue(addrs)) == Some(addrs)
  {
    AddressesRoundTrip(addrs);
  }

  const UpdateKeys := CreateKeys

  /** The dump of one field of an update. */
  function Slot(u: PersonUpdate, k: Key): Presence<Value> {
    match k
    case Uni => Dumped(u.uni, StrValue)
    case FirstName => Dumped(u.firstName, StrValue)
    case LastName => Dumped(u.lastName, StrValue)
    case Email => Dumped(u.email, StrValue)
    case Phone => Dumped(u.phone, StrValue)
    case BirthDate => Dumped(u.birthDate, DateValue)
    case AddressList => Dumped(u.addresses, AddressesValue)
    case _ => Unset
  }

  /** `update.model_dump(exclude_unset=True)`. */
  function DumpUpdate(u: PersonUpdate): (d: Dict)
    ensures d.Keys <= UpdateKeys
    ensures Id !in d && CreatedAt !in d && UpdatedAt !in d
  {
    map k | k in UpdateKeys && Slot(u, k).Given? :: Slot(u, k).value
  }

  /** An update that sets nothing dumps to the empty dict. */
  lemma DumpNoChanges()
    ensures DumpUpdate(NoChanges) == map[]
  {
  }

  /** `person.model_dump()`: the payload's own fields and nothing the server
      generates. */
  function CreateDump(c: PersonCreate): (d: Dict)
    ensures d.Keys == CreateKeys
    ensures Id !in d && CreatedAt !in d && UpdatedAt !in d
  {
    map[
      Uni := VStr(c.uni),
      FirstName := VStr(c.firstName),
      LastName := VStr(c.lastName),
      Email := VStr(c.email),
      Phone := VStr(c.phone),
      BirthDate := VDate(c.birthDate),
      AddressList := AddressesValue(c.addresses)]
  }

  /** `read.model_dump()`; the addresses dump as a list of nested dicts. */
  function Dump(r: PersonRead): Dict {
    map[
      Uni := VStr(r.uni),
      FirstName := VStr(r.firstName),
      LastName := VStr(r.lastName),
      Email := VStr(r.email),
      Phone := VStr(r.phone),
      BirthDate := VDate(r.birthDate),
      AddressList := AddressesValue(r.addresses),
      Id := VUuid(r.id),
      CreatedAt := VTime(r.createdAt),
      UpdatedAt := VTime(r.updatedAt)]
  }

  /** `PersonRead(**d)` for a dict that carries every field: a missing,
      null or ill-typed field fails validation, and every field, the id and
      the timestamps included, comes from the dict. */
  function Build(d: Dict): (r: Option<PersonRead>)
    ensures r.Some? <==>
      && Uni in d && d[Uni].VStr?
      && FirstName in d && d[FirstName].VStr?
      && LastName in d && d[LastName].VStr?
      && Email in d && d[Email].VStr?
      && Phone in d && d[Phone].VStr?
      && BirthDate in d && d[BirthDate].VDate?
      && AddressList in d && AsAddresses(d[AddressList]).Some?
      && Id in d && d[Id].VUuid?
      && CreatedAt in d && d[CreatedAt].VTime?
      && UpdatedAt in d && d[UpdatedAt].VTime?
    ensures r.Some? ==>
      && d[Uni] == VStr(r.value.uni)
      && d[FirstName] == VStr(r.value.firstName)
      && d[LastName] == VStr(r.value.lastName)
      && d[Email] == VStr(r.value.email)
      && d[Phone] == VStr(r.value.phone)
      && d[BirthDate] == VDate(r.value.birthDate)
      && AsAddresses(d[AddressList]) == Some(r.value.addresses)
      && d[Id] == VUuid(r.value.id)
      && d[CreatedAt] == VTime(r.value.createdAt)
      && d[UpdatedAt] == VTime(r.value.updatedAt)
  {
    var uni :- Required(d, Uni, AsStr);
    var firstName :- Required(d, FirstName, AsStr);
    var lastName :- Required(d, LastName, AsStr);
    var email :- Required(d, Email, AsStr);
    var phone :- Required(d, Phone, AsStr);
    var birthDate :- Required(d, BirthDate, AsDate);
    var addresses :- Required(d, AddressList, AsAddresses);
    var id :- Required(d, Id, AsUuid);
    var createdAt :- Required(d, CreatedAt, AsTime);
    var updatedAt :- Required(d, UpdatedAt, AsTime);
    Some(PersonRead(id, uni, firstName, lastName, email, phone, birthDate, addresses, createdAt, updatedAt))
  }

  lemma BuildDump(r: PersonRead)
    ensures Build(Dump(r)) == Some(r)
  {
    AddressesValueRoundTrip(r.addresses);
  }

  // ---------------------------------------------------------------------------
  // The partial-update merge
  // ---------------------------------------------------------------------------

  /** Field-by-field reference for the merge. */
  function Overlay(r: PersonRead, u: PersonUpdate): (m: Option<PersonRead>)
    ensures m.Some? ==> m.value.id == r.id && m.value.createdAt == r.createdAt && m.value.updatedAt == r.updatedAt
    ensures m.None? <==>
      u.uni == Given(None) || u.firstName == Given(None) || u.lastName == Given(None)
      || u.email == Given(None) || u.phone == Given(None)
      || u.birthDate == Given(None) || u.addresses == Given(None)
  {
    var uni :- OverlayRequired(r.uni, u.uni);
    var firstName :- OverlayRequired(r.firstName, u.firstName);
    var lastName :- OverlayRequired(r.lastName, u.lastName);
    var email :- OverlayRequired(r.email, u.email);
    var phone :- OverlayRequired(r.phone, u.phone);
    var birthDate :- OverlayRequired(r.birthDate, u.birthDate);
    var addresses :- OverlayRequired(r.addresses, u.addresses);
    Some(PersonRead(r.id, uni, firstName, lastName, email, phone, birthDate, addresses, r.createdAt, r.updatedAt))
  }

  /** `Dump(r)` after `dict.update` with the update's dump. */
  function Merged(r: PersonRead, u: PersonUpdate): Dict {
    Dump(r) + DumpUpdate(u)
  }

  /** The dump has one key per declared field, and the update adds none:
      the merged dict has the same keys and keeps the id and timestamps. */
  lemma MergedShape(r: PersonRead, u: PersonUpdate)
    ensures Dump(r).Keys == ReadKeys
    ensures Merged(r, u).Keys == ReadKeys
    ensures Merged(r, u)[Id] == VUuid(r.id)
    ensures Merged(r, u)[CreatedAt] == VTime(r.createdAt) && Merged(r, u)[UpdatedAt] == VTime(r.updatedAt)
  {
  }

  // Each field of the merged dict validates to the overlaid field.
  lemma MergedUni(r: PersonRead, u: PersonUpdate)
    ensures Required(Merged(r, u), Uni, AsStr) == OverlayRequired(r.uni, u.uni)
  {
  }

  lemma MergedFirstName(r: PersonRead, u: PersonUpdate)
    ensures Required(Merged(r, u), FirstName, AsStr) == OverlayRequired(r.firstName, u.firstName)
  {
  }

  lemma MergedLastName(r: PersonRead, u: PersonUpdate)
    ensures Required(Merged(r, u), LastName, AsStr) == OverlayRequired(r.lastName, u.lastName)
  {
  }

  lemma MergedEmail(r: PersonRead, u: PersonUpdate)
    ensures Required(Merged(r, u), Email, AsStr) == OverlayRequired(r.email, u.email)
  {
  }

  lemma MergedPhone(r: PersonRead, u: PersonUpdate)
    ensures Required(Merged(r, u), Phone, AsStr) == OverlayRequired(r.phone, u.phone)
  {
  }

  lemma MergedBirthDate(r: PersonRead, u: PersonUpdate)
    ensures Required(Merged(r, u), BirthDate, AsDate) == OverlayRequired(r.birthDate, u.birthDate)
  {
  }

  /** The address list survives its round trip through nested dicts. */
  lemma MergedAddresses(r: PersonRead, u: PersonUpdate)
    ensures Required(Merged(r, u), AddressList, AsAddresses) == OverlayRequired(r.addresses, u.addresses)
  {
    var m := Merged(r, u);
    assert AddressList in m;
    match u.addresses
    case Unset =>
      assert m[AddressList] == AddressesValue(r.addresses);
      AddressesValueRoundTrip(r.addresses);
    case Given(None) =>
      assert m[AddressList] == VNull;
    case Given(Some(addrs)) =>
      assert m[AddressList] == AddressesValue(addrs);
      AddressesValueRoundTrip(addrs);
  }

  /** The id and the timestamps pass through the merge untouched. */
  lemma MergedStamps(r: PersonRead, u: PersonUpdate)
    ensures Required(Merged(r, u), Id, AsUuid) == Some(r.id)
    ensures Required(Merged(r, u), CreatedAt, AsTime) == Some(r.createdAt)
    ensures Required(Merged(r, u), UpdatedAt, AsTime) == Some(r.updatedAt)
  {
  }

  /** Rebuilding the merged dict validates exactly what the overlay accepts. */
  lemma BuildMerged(r: PersonRead, u: PersonUpdate)
    ensures Build(Merged(r, u)) == Overlay(r, u)
  {
    MergedUni(r, u);
    MergedFirstName(r, u);
    MergedLastName(r, u);
    MergedEmail(r, u);
    MergedPhone(r, u);
    MergedBirthDate(r, u);
    MergedAddresses(r, u);
    MergedStamps(r, u);
  }

  /** Dump the stored record, `dict.update` it with the explicitly set update
      fields, and rebuild the Read record. */
  function Merge(r: PersonRead, u: PersonUpdate): (m: Option<PersonRead>)
    ensures m.Some? ==> m.value.id == r.id && m.value.createdAt == r.createdAt && m.value.updatedAt == r.updatedAt
    ensures m.None? <==>
      u.uni == Given(None) || u.firstName == Given(None) || u.lastName == Given(None)
      || u.email == Given(None) || u.phone == Given(None)
      || u.birthDate == Given(None) || u.addresses == Given(None)
  {
    BuildMerged(r, u);
    Build(Merged(r, u))
  }

  lemma MergeIsOverlay(r: PersonRead, u: PersonUpdate)
    ensures Merge(r, u) == Overlay(r, u)
  {
    BuildMerged(r, u);
  }

  lemma MergeNoChanges(r: PersonRead)
    ensures Merge(r, NoChanges) == Some(r)
  {
    MergeIsOverlay(r, NoChanges);
  }

  lemma MergeIdempotent(r: PersonRead, u: PersonUpdate)
    requires Overlay(r, u).Some?
    ensures Merge(Merge(r, u).value, u) == Merge(r, u)
  {
    MergeIsOverlay(r, u);
    var m := Merge(r, u).value;
    MergeIsOverlay(m, u);
    OverlayRequiredTwice(r.uni, u.uni);
    OverlayRequiredTwice(r.firstName, u.firstName);
    OverlayRequiredTwice(r.lastName, u.lastName);
    OverlayRequiredTwice(r.email, u.email);
    OverlayRequiredTwice(r.phone, u.phone);
    OverlayRequiredTwice(r.birthDate, u.birthDate);
    OverlayRequiredTwice(r.addresses, u.addresses);
  }

  // ---------------------------------------------------------------------------
  // Handlers
  // ---------------------------------------------------------------------------

  /** `PersonRead(**person.model_dump())`: the id comes from its default
      factory, here the parameter `id`; the timestamps are successive clock
      readings `t0` and `t1`. */
  function NewPerson(c: PersonCreate, id: Uuid, t0: Timestamp, t1: Timestamp): (r: PersonRead)
    ensures Build(CreateDump(c) + map[Id := VUuid(id), CreatedAt := VTime(t0), UpdatedAt := VTime(t1)]) == Some(r)
  {
    AddressesValueRoundTrip(c.addresses);
    PersonRead(id, c.uni, c.firstName, c.lastName, c.email, c.phone, c.birthDate, c.addresses, t0, t1)
  }

  /** `POST /persons`: the new record is filed under its own id. */
  function CreatePerson(s: PersonStore, c: PersonCreate, id: Uuid, t0: Timestamp, t1: Timestamp)
    : (res: (PersonStore, PersonRead))
    requires Valid(s)
    ensures Valid(res.0)
    ensures res.1.uni == c.uni && res.1.firstName == c.firstName && res.1.lastName == c.lastName
    ensures res.1.email == c.email && res.1.phone == c.phone
    ensures res.1.birthDate == c.birthDate && res.1.addresses == c.addresses
    ensures res.1.id == id && res.1.createdAt == t0 && res.1.updatedAt == t1
    ensures res.0.entries == s.entries[id := res.1]
  {
    var r := NewPerson(c, id, t0, t1);
    (Put(s, r.id, r), r)
  }

  lemma CreateFreshPerson(s: PersonStore, c: PersonCreate, id: Uuid, t0: Timestamp, t1: Timestamp)
    requires Valid(s) && id !in s.entries
    ensures var (s', r) := CreatePerson(s, c, id, t0, t1);
      && s'.order == s.order + [id]
      && s'.entries.Keys == s.entries.Keys + {id}
      && (forall k :: k in s.entries ==> s'.entries[k] == s.entries[k])
      && s'.entries[id] == r
      && Values(s') == Values(s) + [r]
  {
    ValuesAfterFreshPut(s, id, NewPerson(c, id, t0, t1));
  }

  predicate UniIs(v: string, p: PersonRead) { p.uni == v }
  predicate FirstNameIs(v: string, p: PersonRead) { p.firstName == v }
  predicate LastNameIs(v: string, p: PersonRead) { p.lastName == v }
  predicate EmailIs(v: string, p: PersonRead) { p.email == v }
  predicate PhoneIs(v: string, p: PersonRead) { p.phone == v }

  /** `str(p.birth_date) == v`: the query text against the date's text. */
  predicate BirthDateIs(v: string, p: PersonRead) { DateText(p.birthDate) == v }

  /** `any(addr.city == v for addr in p.addresses)`: some embedded address
      is in that city. */
  predicate LivesInCity(v: string, p: PersonRead): (b: bool)
    ensures b <==> exists i :: 0 <= i < |p.addresses| && p.addresses[i].city == v
  {
    Any(p.addresses, (a: AddressFields) => a.city == v)
  }

  /** `any(addr.country == v for addr in p.addresses)`. */
  predicate LivesInCountry(v: string, p: PersonRead): (b: bool)
    ensures b <==> exists i :: 0 <= i < |p.addresses| && p.addresses[i].country == v
  {
    Any(p.addresses, (a: AddressFields) => a.country == v)
  }

  /** Each text parameter equals its field, the birth date is compared as
      text, and a place parameter needs some embedded address there. */
  predicate Matches(q: PersonQuery, p: PersonRead): (b: bool)
    ensures b <==>
      && (q.uni.None? || q.uni == Some(p.uni))
      && (q.firstName.None? || q.firstName == Some(p.firstName))
      && (q.lastName.None? || q.lastName == Some(p.lastName))
      && (q.email.None? || q.email == Some(p.email))
      && (q.phone.None? || q.phone == Some(p.phone))
      && (q.birthDate.None? || q.birthDate == Some(DateText(p.birthDate)))
      && (q.city.None? || exists i :: 0 <= i < |p.addresses| && p.addresses[i].city == q.city.value)
      && (q.country.None? || exists i :: 0 <= i < |p.addresses| && p.addresses[i].country == q.country.value)
    ensures q == AnyPerson ==> b
  {
    && Admits(q.uni, UniIs, p)
    && Admits(q.firstName, FirstNameIs, p)
    && Admits(q.lastName, LastNameIs, p)
    && Admits(q.email, EmailIs, p)
    && Admits(q.phone, PhoneIs, p)
    && Admits(q.birthDate, BirthDateIs, p)
    && Admits(q.city, LivesInCity, p)
    && Admits(q.country, LivesInCountry, p)
  }

  /** `GET /persons`: one comprehension per parameter, the address ones last. */
  function ListPersons(s: PersonStore, q: PersonQuery): (r: seq<PersonRead>)
    requires Valid(s)
    ensures forall i :: 0 <= i < |r| ==> r[i] in Values(s) && Matches(q, r[i])
    ensures forall i :: 0 <= i < |Values(s)| && Matches(q, Values(s)[i]) ==> Values(s)[i] in r
    ensures q == AnyPerson ==> r == Values(s)
  {
    var r1 := Narrow(Values(s), q.uni, UniIs);
    var r2 := Narrow(r1, q.firstName, FirstNameIs);
    var r3 := Narrow(r2, q.lastName, LastNameIs);
    var r4 := Narrow(r3, q.email, EmailIs);
    var r5 := Narrow(r4, q.phone, PhoneIs);
    var r6 := Narrow(r5, q.birthDate, BirthDateIs);
    var r7 := Narrow(r6, q.city, LivesInCity);
    Narrow(r7, q.country, LivesInCountry)
  }

  lemma ListPersonsIsOneFilter(s: PersonStore, q: PersonQuery)
    requires Valid(s)
    ensures ListPersons(s, q) == Filter(Values(s), p => Matches(q, p))
    ensures IsSubsequence(ListPersons(s, q), Values(s))
    ensures forall i :: 0 <= i < |Values(s)| ==>
      multiset(ListPersons(s, q))[Values(s)[i]] == if Matches(q, Values(s)[i]) then multiset(Values(s))[Values(s)[i]] else 0
  {
    var vs := Values(s);
    var p1 := p => Admits(q.uni, UniIs, p);
    var p2 := p => p1(p) && Admits(q.firstName, FirstNameIs, p);
    var p3 := p => p2(p) && Admits(q.lastName, LastNameIs, p);
    var p4 := p => p3(p) && Admits(q.email, EmailIs, p);
    var p5 := p => p4(p) && Admits(q.phone, PhoneIs, p);
    var p6 := p => p5(p) && Admits(q.birthDate, BirthDateIs, p);
    var p7 := p => p6(p) && Admits(q.city, LivesInCity, p);
    NarrowIsFilter(vs, q.uni, UniIs);
    NarrowAfterFilter(vs, p1, q.firstName, FirstNameIs, p2);
    NarrowAfterFilter(vs, p2, q.lastName, LastNameIs, p3);
    NarrowAfterFilter(vs, p3, q.email, EmailIs, p4);
    NarrowAfterFilter(vs, p4, q.phone, PhoneIs, p5);
    NarrowAfterFilter(vs, p5, q.birthDate, BirthDateIs, p6);
    NarrowAfterFilter(vs, p6, q.city, LivesInCity, p7);
    NarrowAfterFilter(vs, p7, q.country, LivesInCountry, p => Matches(q, p));
    FilterCounts(vs, p => Matches(q, p));
  }

  /** The birth-date parameter matches exactly when it is the canonical text
      of the stored date: it is compared as text, never parsed. */
  lemma BirthDateMatchIsCanonicalText(v: string, p: PersonRead)
    ensures BirthDateIs(v, p) <==> ParseDate(v) == Some(p.birthDate)
  {
    DateTextMatchesIffParses(p.birthDate, v);
  }

  /** A birth-date parameter that is not a canonical date text, such as
      "2000-1-5", lists nobody. */
  lemma NonCanonicalBirthDateListsNobody(s: PersonStore, q: PersonQuery)
    requires Valid(s) && q.birthDate.Some? && ParseDate(q.birthDate.value).None?
    ensures ListPersons(s, q) == []
  {
    var r := ListPersons(s, q);
    if |r| > 0 {
      BirthDateMatchIsCanonicalText(q.birthDate.value, r[0]);
    }
  }

  /** A person with no addresses never matches a city or country parameter. */
  lemma NoAddressesNoPlaceMatch(s: PersonStore, q: PersonQuery, p: PersonRead)
    requires Valid(s) && p.addresses == [] && (q.city.Some? || q.country.Some?)
    ensures p !in ListPersons(s, q)
  {
  }

  /** The nested filter is existential over the embedded list. */
  lemma NestedCityExample(p: PersonRead, nyc: AddressFields, boston: AddressFields)
    requires nyc.city == "NYC" && boston.city == "Boston"
    requires p.addresses == [nyc, boston]
    ensures LivesInCity("NYC", p) && LivesInCity("Boston", p) && !LivesInCity("Chicago", p)
  {
    assert p.addresses[0] == nyc && p.addresses[1] == boston;
  }

  /** `GET /persons/{id}`. */
  function GetPerson(s: PersonStore, id: Uuid): (r: Result<PersonRead>)
    ensures r.Success? <==> id in s.entries
    ensures r.Success? ==> r.value == s.entries[id]
    ensures r.Failure? ==> r.error == NotFound
  {
    Get(s, id)
  }

  /** `PATCH /persons/{id}`. */
  function PatchPerson(s: PersonStore, id: Uuid, u: PersonUpdate): (res: (PersonStore, Result<PersonRead>))
    requires Valid(s)
    ensures Valid(res.0)
    ensures id !in s.entries ==> res == (s, Failure(NotFound))
    ensures res.1.Failure? ==> res.0 == s
    ensures id in s.entries && Overlay(s.entries[id], u).Some? ==> res.1 == Success(Overlay(s.entries[id], u).value)
    ensures res.1.Success? ==>
      && id in s.entries
      && Overlay(s.entries[id], u) == Some(res.1.value)
      && res.0.order == s.order
      && res.0.entries == s.entries[id := res.1.value]
  {
    var res := Patch(s, id, p => Merge(p, u));
    if id in s.entries then MergeIsOverlay(s.entries[id], u); res else res
  }

  lemma PatchNoChanges(s: PersonStore, id: Uuid)
    requires Valid(s) && id in s.entries
    ensures PatchPerson(s, id, NoChanges) == (s, Success(s.entries[id]))
  {
    MergeNoChanges(s.entries[id]);
    PutSameValue(s, id);
  }

  function PersonId(p: PersonRead): Uuid { p.id }

  predicate StampsOrdered(p: PersonRead) { p.createdAt <= p.updatedAt }

  ghost predicate Consistent(s: PersonStore) {
    Valid(s) && KeyedBy(s, PersonId) && All(s, StampsOrdered)
  }

  lemma CreateKeepsConsistent(s: PersonStore, c: PersonCreate, id: Uuid, t0: Timestamp, t1: Timestamp)
    requires Consistent(s) && t0 <= t1
    ensures Consistent(CreatePerson(s, c, id, t0, t1).0)
  {
    PutKeepsInvariants(s, id, NewPerson(c, id, t0, t1), PersonId, StampsOrdered);
  }

  lemma PatchKeepsConsistent(s: PersonStore, id: Uuid, u: PersonUpdate)
    requires Consistent(s)
    ensures Consistent(PatchPerson(s, id, u).0)
  {
    PatchKeepsInvariants(s, id, p => Merge(p, u), PersonId, StampsOrdered);
  }
}

=== FILE: stores.dfy ===
/** The in-memory "database" of one collection: a Python dict from UUID to
    Read record.  A dict remembers the order in which its keys were first
    inserted; assigning to a key already present keeps its position. */
module Stores {
  import opened Outcomes

  datatype Store<V> = Store(entries: map<Uuid, V>, order: seq<Uuid>)

  ghost predicate Distinct(ks: seq<Uuid>) {
    forall i, j :: 0 <= i < j < |ks| ==> ks[i] != ks[j]
  }

  /** `order` lists every key exactly once. */
  ghost predicate Valid<V>(s: Store<V>) {
    Distinct(s.order) && (forall k :: k in s.entries <==> k in s.order)
  }

  function Empty<V>(): (s: Store<V>)
    ensures Valid(s) && |s.order| == 0 && s.entries == map[]
  {
    Store(map[], [])
  }

  /** `list(d.values())`: the stored records in insertion order. */
  function Values<V>(s: Store<V>): (vs: seq<V>)
    requires Valid(s)
    ensures |vs| == |s.order|
    ensures forall k :: k in s.entries ==> s.entries[k] in vs
    ensures forall i :: 0 <= i < |vs| ==> s.order[i] in s.entries && vs[i] == s.entries[s.order[i]]
  {
    var vs := seq(|s.order|, i requires 0 <= i < |s.order| => s.entries[s.order[i]]);
    assert forall k :: k in s.entries ==> s.entries[k] in vs by {
      forall k | k in s.entries ensures s.entries[k] in vs {
        var i :| 0 <= i < |s.order| && s.order[i] == k;
        assert vs[i] == s.entries[k];
      }
    }
    vs
  }

  /** `d[k]`, or NotFound when the key is absent.  The store is not touched. */
  function Get<V>(s: Store<V>, k: Uuid): (r: Result<V>)
    ensures r.Success? <==> k in s.entries
    ensures r.Success? ==> r.value == s.entries[k]
    ensures r.Failure? ==> r.error == NotFound
  {
    if k in s.entries then Success(s.entries[k]) else Failure(NotFound)
  }

  /** `d[k] = v`: a new key goes last; an existing key keeps its place. */
  function Put<V>(s: Store<V>, k: Uuid, v: V): (s': Store<V>)
    requires Valid(s)
    ensures Valid(s')
    ensures s'.entries == s.entries[k := v]
    ensures k in s.entries ==> s'.order == s.order
    ensures k !in s.entries ==> s'.order == s.order + [k]
  {
    if k in s.entries then Store(s.entries[k := v], s.order)
    else Store(s.entries[k := v], s.order + [k])
  }

  /** Inserting a fresh key appends its record to the listing. */
  lemma ValuesAfterFreshPut<V>(s: Store<V>, k: Uuid, v: V)
    requires Valid(s) && k !in s.entries
    ensures Values(Put(s, k, v)) == Values(s) + [v]
  {
    var s' := Put(s, k, v);
    assert forall i :: 0 <= i < |s.order| ==> s.order[i] != k;
  }

  /** Re-assigning a present key changes its record in place and nothing else. */
  lemma ValuesAfterPutExisting<V>(s: Store<V>, k: Uuid, v: V)
    requires Valid(s) && k in s.entries
    ensures |Values(Put(s, k, v))| == |Values(s)|
    ensures forall i :: 0 <= i < |s.order| ==>
      Values(Put(s, k, v))[i] == if s.order[i] == k then v else Values(s)[i]
  {
  }

  /** `d[k] = v` when `d[k] == v` already leaves the store as it was. */
  lemma PutSameValue<V>(s: Store<V>, k: Uuid)
    requires Valid(s) && k in s.entries
    ensures Put(s, k, s.entries[k]) == s
  {
    assert s.entries[k := s.entries[k]] == s.entries;
  }

  /** The patch handlers: NotFound for an absent key; otherwise the merged
      record replaces the stored one in place, unless the merge cannot be
      validated, in which case nothing is written. */
  function Patch<V>(s: Store<V>, k: Uuid, merge: V -> Option<V>): (res: (Store<V>, Result<V>))
    requires Valid(s)
    ensures Valid(res.0)
    ensures k !in s.entries ==> res == (s, Failure(NotFound))
    ensures k in s.entries && merge(s.entries[k]).None? ==> res == (s, Failure(InvalidRecord))
    ensures k in s.entries && merge(s.entries[k]).Some? ==> res.1 == Success(merge(s.entries[k]).value)
    ensures res.1.Failure? ==> res.0 == s
    ensures res.1.Success? ==>
      && k in s.entries
      && merge(s.entries[k]) == Some(res.1.value)
      && res.0.order == s.order
      && res.0.entries == s.entries[k := res.1.value]
  {
    if k !in s.entries then (s, Failure(NotFound))
    else match merge(s.entries[k])
      case None => (s, Failure(InvalidRecord))
      case Some(v) => (Put(s, k, v), Success(v))
  }

  /** Every stored record is filed under the key `key` computes from it. */
  ghost predicate KeyedBy<V>(s: Store<V>, key: V -> Uuid) {
    forall k :: k in s.entries ==> key(s.entries[k]) == k
  }

  /** Every stored record satisfies `P`. */
  ghost predicate All<V>(s: Store<V>, P: V -> bool) {
    forall k :: k in s.entries ==> P(s.entries[k])
  }

  lemma PutKeepsInvariants<V>(s: Store<V>, k: Uuid, v: V, key: V -> Uuid, P: V -> bool)
    requires Valid(s) && KeyedBy(s, key) && All(s, P)
    requires key(v) == k && P(v)
    ensures KeyedBy(Put(s, k, v), key) && All(Put(s, k, v), P)
  {
  }

  /** A merge that keeps the key and the invariant keeps them store-wide. */
  lemma PatchKeepsInvariants<V>(s: Store<V>, k: Uuid, merge: V -> Option<V>, key: V -> Uuid, P: V -> bool)
    requires Valid(s) && KeyedBy(s, key) && All(s, P)
    requires forall v :: P(v) && merge(v).Some? ==> key(merge(v).value) == key(v) && P(merge(v).value)
    ensures KeyedBy(Patch(s, k, merge).0, key) && All(Patch(s, k, merge).0, P)
  {
    if k in s.entries {
      var v := s.entries[k];
      assert P(v);
    }
  }
}
